=== FILE: README.md ===
# Mindful: blocking services, modelled in Dafny

Mindful is an Android digital-wellbeing app. This project models the Java
side of its enforcement core:

- **MindfulTrackerService** and its inner **AppLaunchReceiver**. Per-app
  daily timers, the bedtime "distracting" set and the set of apps purged
  for the day. On every app launch the service decides whether to block
  the app with an overlay, or schedules one recheck for the moment its
  budget runs out.
- **MindfulVpnService**. The blocked-app set, a restart deferred to the
  next safe point, and a single worker-thread slot that is replaced with
  get-and-set-then-interrupt.
- **FocusSessionService**. A one-shot countdown with Do-Not-Disturb
  handling, the progress text shown on every tick, and the success and
  give-up messages.
- **FocusSession**. The session payload read from a JSON object through
  Android's `org.json` getters.
- **PurgeType**, the block reason with its integer wire form, and
  **Extensions.getOrDefault**.

Files:

| file | module | contents |
|---|---|---|
| `wrappers.dfy` | `Wrappers` | `Option` |
| `extensions.dfy` | `Extensions` | `GetOrDefault` |
| `purge_type.dfy` | `PurgeTypes` | the enum and its two conversions |
| `java_ints.dfy` | `JavaInts` | Java `int`/`long` wrap-around, truncating `/` and `%`, `Integer.toString` with its inverse |
| `json.dfy` | `Json` | a parsed JSON value and the typed `org.json` getters |
| `focus_session.dfy` | `FocusSessions` | the session record and its constructor |
| `focus_session_service.dfy` | `FocusCountdown` | the countdown service |
| `tracker_service.dfy` | `Tracker` | the tracking service and launch receiver |
| `vpn_service.dfy` | `Vpn` | the VPN service |

Each service is written twice:

- **A value model.** A state datatype (`TrackerState`, `VpnState`,
  `FocusState`) and one pure transition function per entry point
  (`…Step`). The properties are proved over these.
- **A class.** Its fields are the Java fields. Its methods update them
  step by step, in the order the Java code does, and each method ensures
  `State() == XStep(old(State()), …)`.

Anything the services do outside themselves is appended to an `effects`
trace, in order: starting the overlay, `stopSelf`, toggling DND, showing a
notification, requesting a restart.

Inputs that the Java code obtains from the platform become parameters:

- the stored timers, bedtime apps and blocked apps;
- today's usage of a package;
- whether the overlay service is already running;
- whether the tracker connection is bound;
- whether a `close()` throws;
- how a VPN worker's setup ends;
- the set of installed packages.

Main results:

- **VPN single-worker invariant.** Every worker thread ever created is
  either the one in the slot or has been interrupted, exactly once. This
  holds after any sequence of commands, updates, safe points, worker runs
  and destroys (`Vpn.RunKeepsInv`). As a consequence at most one created
  worker is left uninterrupted (`Vpn.AtMostOneLiveWorker`).
- **App-launch decision table.** Distracting beats timed. An app already
  purged is blocked without looking at usage. Usage that is non-zero and
  reached the budget purges and blocks at once. Otherwise exactly one
  recheck is pending, due after the remaining budget, and when it fires
  it purges and blocks. A recheck made stale by another launch can never
  purge its package.
- **DND pairing.** From a fresh service, a session that asked for DND and
  had apps switches DND on and then off. One that did not ask never
  touches it. A DND session without apps that is then given up switches
  DND off without having switched it on (see below).
- **Countdown text.** The unit word is " hours", " hour" or " minutes",
  chosen exactly by the hours left. Fields are not zero-padded.
  `Integer.toString` round-trips through its inverse.
- **FocusSession parse.** A method with a loop, proved equal to a
  declarative decoding. Lemmas cover the well-formed case and each way the
  parse stops early.
- **PurgeType conversions.** Decoding inverts encoding, and out-of-range
  integers decode to `AppTimerOut`.

Where the code and the documented intent differ, the model follows the code:

- Giving up a focus session does not clear the tracker's focus block. Only
  the natural finish calls `startStopFocusSession(null)`.
- The tracker's idle check (`stopIfNoUsage`) runs on these paths only:
  the default command, stopping bedtime and updating timers. It does not
  run after starting bedtime or after the midnight reset.
- A launch purges an app only when today's usage is positive and at least
  the budget. A zero budget with zero usage schedules a recheck with zero
  delay.
- Giving up switches DND off whenever the stored session asked for DND,
  whether or not its countdown ever started. A session with DND but no
  apps starts nothing, yet a later give-up turns DND off
  (`FocusCountdown.DndTraceOfOneSession`).
- When none of the blocked apps is installed, the worker adds no allowed
  application. The platform then routes every app into the tunnel, so the
  whole device loses its network instead of no app
  (`Vpn.NoResolvedBlockedAppRoutesEverything`).
- When a VPN worker cannot protect its socket, the exception escapes the
  worker without teardown. The model records `WorkerCrashed`.

## Model

| member | source | states |
|---|---|---|
| Extensions.GetOrDefault | android/app/src/main/java/com/akamrnagar/mindful/utils/Extensions.java:8-10 | a present key yields its stored value, an absent key the default |
| Extensions.GetOrDefaultIsStoredOrDefault | android/app/src/main/java/com/akamrnagar/mindful/utils/Extensions.java:9 | the answer is always the default or one of the map's values |
| PurgeTypes.FromInteger | android/app/src/main/java/com/mindful/android/enums/PurgeType.java:23-37 | 0..4 select the variant declared at that position; every other integer yields AppTimerOut |
| PurgeTypes.ToInteger | android/app/src/main/java/com/mindful/android/enums/PurgeType.java:39-53 | every variant maps into 0..4, to its own declaration position |
| PurgeTypes.FromToInteger | android/app/src/main/java/com/mindful/android/enums/PurgeType.java:23-53 | decoding the encoding gives back the variant |
| PurgeTypes.ToFromInteger | android/app/src/main/java/com/mindful/android/enums/PurgeType.java:23-51 | on 0..4, encoding the decoding gives back the integer |
| PurgeTypes.ToIntegerInjective | android/app/src/main/java/com/mindful/android/enums/PurgeType.java:39-51 | distinct variants have distinct integers |
| PurgeTypes.OutOfRangeIsAppTimerOut | android/app/src/main/java/com/mindful/android/enums/PurgeType.java:36 | integers outside 0..4 fall back to AppTimerOut |
| JavaInts.ToInt32 | android/app/src/main/java/com/mindful/android/services/FocusSessionService.java:123 | the `(int)` cast lands in the 32-bit range, is congruent modulo 2^32 and is the identity in range |
| JavaInts.ToInt64 | android/app/src/main/java/com/mindful/android/services/FocusSessionService.java:62 | the long product lands in the 64-bit range, is congruent modulo 2^64 and is the identity in range |
| JavaInts.Div | android/app/src/main/java/com/mindful/android/services/FocusSessionService.java:123-125 | Java's quotient by a positive divisor has the sign of the dividend |
| JavaInts.Rem | android/app/src/main/java/com/mindful/android/services/FocusSessionService.java:125-126 | quotient times divisor plus remainder is the dividend; the remainder has the dividend's sign and is below the divisor in size |
| JavaInts.NatToString | android/app/src/main/java/com/mindful/android/services/FocusSessionService.java:132-133 | a number renders as a non-empty string of decimal digits without a leading zero |
| JavaInts.IntToString | android/app/src/main/java/com/mindful/android/services/FocusSessionService.java:130-133 | non-empty; starts with a minus sign exactly for negative integers; all digits otherwise |
| JavaInts.NatToStringRoundTrip | android/app/src/main/java/com/mindful/android/services/FocusSessionService.java:132-133 | reading the digits back gives the number |
| JavaInts.IntToStringRoundTrip | android/app/src/main/java/com/mindful/android/services/FocusSessionService.java:130-133 | `ParseInt(IntToString(i)) == Some(i)` for every integer, negative ones included |
| JavaInts.IntToStringInjective | android/app/src/main/java/com/mindful/android/services/FocusSessionService.java:130-133 | distinct integers render as distinct text |
| Json.AsBoolean | android/app/src/main/java/com/mindful/android/models/FocusSession.java:46 | a JSON boolean reads as itself; a string reads as true (false) exactly when it spells "true" ("false") ignoring case; nothing else reads |
| Json.EqualsIgnoreCase | android/app/src/main/java/com/mindful/android/models/FocusSession.java:46 | every string equals itself ignoring case; otherwise equal length and equal characters after ASCII lower-casing |
| Json.BooleanSpellings | android/app/src/main/java/com/mindful/android/models/FocusSession.java:46 | "TRUE" and "False" read as booleans; "yes", "1" and the number 1 do not |
| Json.GetBoolean | android/app/src/main/java/com/mindful/android/models/FocusSession.java:46 | a missing key fails; a present key reads as its value does under AsBoolean |
| Json.GetLong | android/app/src/main/java/com/mindful/android/models/FocusSession.java:47 | succeeds exactly on a present number, returning it |
| Json.GetArray | android/app/src/main/java/com/mindful/android/models/FocusSession.java:50 | succeeds exactly on a present array, returning its elements |
| Json.GetString | android/app/src/main/java/com/mindful/android/models/FocusSession.java:52 | a string element is returned as it is; any other element is exactly its rendered text, never failing |
| FocusSessions.Decode | android/app/src/main/java/com/mindful/android/models/FocusSession.java:38-60 | empty text, unparsable text or a non-object leaves every field at its initialiser |
| FocusSessions.Parse | android/app/src/main/java/com/mindful/android/models/FocusSession.java:38-60 | the constructor's sequence of assignments and its loop over the array produce exactly the declarative decoding |
| FocusSessions.DecodeWellFormed | android/app/src/main/java/com/mindful/android/models/FocusSession.java:46-53 | an object whose toggleDnd reads as a boolean (either spelling accepted by getBoolean) and whose other two keys are well typed yields exactly those three values |
| FocusSessions.DecodeStopsAtDnd | android/app/src/main/java/com/mindful/android/models/FocusSession.java:42-48 | an unreadable toggleDnd (missing, or neither a boolean nor a true/false string) leaves every field at its initialiser |
| FocusSessions.DecodeStopsAtDuration | android/app/src/main/java/com/mindful/android/models/FocusSession.java:42-57 | after a readable toggleDnd, a missing or mistyped duration keeps that flag, zero duration and no apps |
| FocusSessions.DecodeStopsAtApps | android/app/src/main/java/com/mindful/android/models/FocusSession.java:50-57 | after a readable toggleDnd and duration, a missing or mistyped array keeps both values and no apps |
| FocusSessions.DecodeKeepsSpelledDnd | android/app/src/main/java/com/mindful/android/models/FocusSession.java:42-57 | a toggleDnd spelled as the string "TRUE" is kept as true when the duration is missing |
| FocusSessions.ElementStringsExact | android/app/src/main/java/com/mindful/android/models/FocusSession.java:50-53 | every string element is in the set, every member comes from some element, and duplicates collapse |
| FocusCountdown.Split | android/app/src/main/java/com/mindful/android/services/FocusSessionService.java:123-126 | hours·3600 + minutes·60 + seconds equals the seconds left; minutes and seconds are below 60; a positive hour count means at least an hour is left; a negative total gives no positive field |
| FocusCountdown.CountdownText | android/app/src/main/java/com/mindful/android/services/FocusSessionService.java:128-133 | always starts with the prefix; with hours left it is prefix, hours, ":", minutes, ":", seconds and " hours" for more than one hour or " hour" for exactly one; otherwise prefix, minutes, ":", seconds, " minutes"; no number is zero-padded |
| FocusCountdown.LeftSeconds | android/app/src/main/java/com/mindful/android/services/FocusSessionService.java:123 | an int; for a representable non-negative input, the whole seconds contained in the milliseconds |
| FocusCountdown.CountdownTextUnit | android/app/src/main/java/com/mindful/android/services/FocusSessionService.java:128-133 | the text starts with the prefix; it ends in " hours" iff hours > 1, in " minutes" iff hours ≤ 0, in ":" seconds " hour" iff hours = 1 |
| FocusCountdown.NoZeroPadding | android/app/src/main/java/com/mindful/android/services/FocusSessionService.java:130-133 | 65 seconds left reads "1:5 minutes" |
| FocusCountdown.ProgressFor | android/app/src/main/java/com/mindful/android/services/FocusSessionService.java:122-137 | the text is the countdown text of the seconds left, the position is the seconds left, and the maximum is the whole seconds of the session as an int (for a representable duration, the largest count of seconds not exceeding it) |
| FocusCountdown.TerminalText | android/app/src/main/java/com/mindful/android/services/FocusSessionService.java:148-151 | the congratulation exactly on success, the give-up text otherwise |
| FocusCountdown.DurationMs | android/app/src/main/java/com/mindful/android/services/FocusSessionService.java:62 | seconds × 1000 when it fits a long, and always a long |
| FocusCountdown.StartCommandStep | android/app/src/main/java/com/mindful/android/services/FocusSessionService.java:56-77 | a null action does nothing; start reads the session and its duration and is sticky iff it has apps; a session with apps starts the countdown after requesting the tracker block, DND on if asked and going foreground; an app-less one changes no effect; any other action gives up: DND off if the session asked for it, stop, give-up message, and no field other than the effects changes |
| FocusCountdown.StartTimer | android/app/src/main/java/com/mindful/android/services/FocusSessionService.java:83-112 | the countdown runs; the tracker block is requested for the session's apps, DND goes on if asked, and the foreground notification shows the full duration; session and duration unchanged |
| FocusCountdown.TickStep | android/app/src/main/java/com/mindful/android/services/FocusSessionService.java:92-95 | a running countdown appends the progress for the time left and changes nothing else; a stopped one changes nothing |
| FocusCountdown.FinishStep | android/app/src/main/java/com/mindful/android/services/FocusSessionService.java:97-108 | a running countdown ends: clear the tracker's block if bound, DND off if asked, stop, success message |
| FocusCountdown.DestroyStep | android/app/src/main/java/com/mindful/android/services/FocusSessionService.java:165-173 | unbind, cancel the countdown, drop the foreground notification |
| FocusCountdown.StartSwitchesDnd | android/app/src/main/java/com/mindful/android/services/FocusSessionService.java:60-88 | start switches DND on exactly when the session asks for it and has apps |
| FocusCountdown.EndSwitchesDnd | android/app/src/main/java/com/mindful/android/services/FocusSessionService.java:67-108 | giving up, or finishing a running countdown, switches DND off exactly when the session asked for it |
| FocusCountdown.DndTraceOfOneSession | android/app/src/main/java/com/mindful/android/services/FocusSessionService.java:56-108 | from a fresh service, the DND switches of one start then one end: on,off for a DND session with apps; none without DND; a lone off for a DND session without apps that is given up |
| FocusCountdown.EmptyPayloadNeverRuns | android/app/src/main/java/com/mindful/android/services/FocusSessionService.java:60-76 | an empty payload gives the neutral session and starts no countdown |
| FocusCountdown.FocusSessionService.constructor | android/app/src/main/java/com/mindful/android/services/FocusSessionService.java:30-35 | no session, zero duration, no countdown |
| FocusCountdown.FocusSessionService.OnStartCommand | android/app/src/main/java/com/mindful/android/services/FocusSessionService.java:56-77 | the fields and the sticky result follow StartCommandStep |
| FocusCountdown.FocusSessionService.StartFocusTimer | android/app/src/main/java/com/mindful/android/services/FocusSessionService.java:83-112 | request the tracker's block, DND on if asked, foreground progress, countdown running |
| FocusCountdown.FocusSessionService.ShowTerminalNotification | android/app/src/main/java/com/mindful/android/services/FocusSessionService.java:148-162 | appends the terminal notification and changes no other field |
| FocusCountdown.FocusSessionService.OnTick | android/app/src/main/java/com/mindful/android/services/FocusSessionService.java:92-95 | follows TickStep |
| FocusCountdown.FocusSessionService.OnFinish | android/app/src/main/java/com/mindful/android/services/FocusSessionService.java:97-108 | follows FinishStep |
| FocusCountdown.FocusSessionService.OnDestroy | android/app/src/main/java/com/mindful/android/services/FocusSessionService.java:165-173 | follows DestroyStep |
| Tracker.StartTrackingStep | android/app/src/main/java/com/mindful/android/services/MindfulTrackerService.java:104-131 | timers reloaded, both receivers registered, running; purged and distracting sets and the recheck untouched |
| Tracker.StopIfNoUsageStep | android/app/src/main/java/com/mindful/android/services/MindfulTrackerService.java:146-153 | stops on purpose exactly when no distracting app and no timer is left; otherwise nothing changes |
| Tracker.UpdateTimersStep | android/app/src/main/java/com/mindful/android/services/MindfulTrackerService.java:136-141 | new timers replace the old and every purge is forgiven; when nothing is left to enforce the service stops on purpose; nothing else changes |
| Tracker.BedtimeStep | android/app/src/main/java/com/mindful/android/services/MindfulTrackerService.java:160-174 | start installs the bedtime apps, forgives purges and re-announces the app in front when the lock/unlock receiver is registered; stop empties the distracting set and stops on purpose iff no timer is left; nothing else changes |
| Tracker.StartCommandStep | android/app/src/main/java/com/mindful/android/services/MindfulTrackerService.java:66-100 | sticky exactly for start and start-bedtime; a null action does nothing; start starts tracking; start-bedtime starts tracking unless running, then starts bedtime; stop-bedtime stops it; midnight forgives purges and alerts; anything else runs the idle check |
| Tracker.PauseResumeStep | android/app/src/main/java/com/mindful/android/services/MindfulTrackerService.java:181-183 | forwards to the lock/unlock receiver when registered; no other change |
| Tracker.DestroyStep | android/app/src/main/java/com/mindful/android/services/MindfulTrackerService.java:186-208 | both receivers released, the recheck cancelled, and a restart requested iff the stop was not on purpose and the service is not already running |
| Tracker.CancelTimersStep | android/app/src/main/java/com/mindful/android/services/MindfulTrackerService.java:300-307 | the recheck slot is empty; nothing else changes |
| Tracker.ShowOverlayStep | android/app/src/main/java/com/mindful/android/services/MindfulTrackerService.java:287-295 | requests the overlay, flagged bedtime iff the app is distracting, unless one is showing; nothing else changes |
| Tracker.TimerAppLaunchedStep | android/app/src/main/java/com/mindful/android/services/MindfulTrackerService.java:250-280 | an unpurged app under budget gets a recheck after the remaining budget in ms and nothing else; a purged or exhausted app is purged and blocked, and the recheck slot is left alone |
| Tracker.LaunchStep | android/app/src/main/java/com/mindful/android/services/MindfulTrackerService.java:223-243 | a missing or empty name changes nothing; otherwise timers, bedtime set and run flags are kept, any pending recheck is for this app, purges grow by at most this app, and at most one overlay request is added |
| Tracker.RecheckFiredStep | android/app/src/main/java/com/mindful/android/services/MindfulTrackerService.java:270-277 | the pending recheck purges its app and requests the overlay, then the slot is empty |
| Tracker.LaunchUnrestricted | android/app/src/main/java/com/mindful/android/services/MindfulTrackerService.java:232-241 | an app neither distracting nor timed only loses the pending recheck |
| Tracker.LaunchDistracting | android/app/src/main/java/com/mindful/android/services/MindfulTrackerService.java:235-237 | a distracting app is blocked as bedtime, without purge or recheck |
| Tracker.LaunchAlreadyPurged | android/app/src/main/java/com/mindful/android/services/MindfulTrackerService.java:251-254 | a purged timed app is blocked at once, whatever its usage |
| Tracker.LaunchOverLimit | android/app/src/main/java/com/mindful/android/services/MindfulTrackerService.java:257-264 | positive usage at or over budget purges and blocks at once |
| Tracker.LaunchSchedulesRecheck | android/app/src/main/java/com/mindful/android/services/MindfulTrackerService.java:266-277 | otherwise exactly one recheck at (budget − usage)·1000 ms, non-negative, and when it fires the app is purged and blocked |
| Tracker.StaleRecheckNeverPurges | android/app/src/main/java/com/mindful/android/services/MindfulTrackerService.java:232-233 | after another app launches, the earlier recheck can no longer purge its app |
| Tracker.EmptyNameKeepsRecheck | android/app/src/main/java/com/mindful/android/services/MindfulTrackerService.java:228-229 | a launch without a name, or with an empty one, changes nothing |
| Tracker.MidnightResetOnlyClearsPurged | android/app/src/main/java/com/mindful/android/services/MindfulTrackerService.java:87-92 | the midnight reset forgives purges, alerts, is not sticky, and changes nothing else |
| Tracker.BedtimeStartNeverStops | android/app/src/main/java/com/mindful/android/services/MindfulTrackerService.java:77-81 | starting bedtime leaves the service running with the bedtime apps, no purges, and no stop request |
| Tracker.BedtimeStopRunsIdleCheck | android/app/src/main/java/com/mindful/android/services/MindfulTrackerService.java:83-85 | stopping bedtime stops the service exactly when no timers are left |
| Tracker.OneMinuteBudgetScenario | android/app/src/main/java/com/mindful/android/services/MindfulTrackerService.java:250-277 | a 60 s budget with no usage schedules a 60000 ms recheck and no overlay; firing it purges and blocks |
| Tracker.TrackerService.constructor | android/app/src/main/java/com/mindful/android/services/MindfulTrackerService.java:46-56 | not running, stop not on purpose, no receivers, empty maps and sets |
| Tracker.TrackerService.OnStartCommand | android/app/src/main/java/com/mindful/android/services/MindfulTrackerService.java:66-100 | the fields and the sticky result follow StartCommandStep |
| Tracker.TrackerService.StartTrackingService | android/app/src/main/java/com/mindful/android/services/MindfulTrackerService.java:104-131 | follows StartTrackingStep |
| Tracker.TrackerService.UpdateAppTimers | android/app/src/main/java/com/mindful/android/services/MindfulTrackerService.java:136-141 | follows UpdateTimersStep |
| Tracker.TrackerService.StopIfNoUsage | android/app/src/main/java/com/mindful/android/services/MindfulTrackerService.java:146-153 | follows StopIfNoUsageStep |
| Tracker.TrackerService.StartStopBedtimeRoutine | android/app/src/main/java/com/mindful/android/services/MindfulTrackerService.java:160-174 | follows BedtimeStep |
| Tracker.TrackerService.PauseResumeTracking | android/app/src/main/java/com/mindful/android/services/MindfulTrackerService.java:181-183 | follows PauseResumeStep |
| Tracker.TrackerService.OnDestroy | android/app/src/main/java/com/mindful/android/services/MindfulTrackerService.java:186-208 | follows DestroyStep |
| Tracker.TrackerService.OnReceive | android/app/src/main/java/com/mindful/android/services/MindfulTrackerService.java:223-243 | follows LaunchStep |
| Tracker.TrackerService.OnTimerAppLaunched | android/app/src/main/java/com/mindful/android/services/MindfulTrackerService.java:250-280 | follows TimerAppLaunchedStep |
| Tracker.TrackerService.RunRecheck | android/app/src/main/java/com/mindful/android/services/MindfulTrackerService.java:270-277 | follows RecheckFiredStep |
| Tracker.TrackerService.ShowOverlayDialog | android/app/src/main/java/com/mindful/android/services/MindfulTrackerService.java:287-295 | follows ShowOverlayStep |
| Tracker.TrackerService.CancelTimers | android/app/src/main/java/com/mindful/android/services/MindfulTrackerService.java:300-307 | follows CancelTimersStep |
| Vpn.SetVpnThreadStep | android/app/src/main/java/com/mindful/android/services/MindfulVpnService.java:176-181 | the slot holds the new thread and the previous holder, if any, is interrupted; nothing else changes |
| Vpn.DisconnectStep | android/app/src/main/java/com/mindful/android/services/MindfulVpnService.java:98-108 | a close that throws skips the rest; otherwise the slot is emptied and its holder interrupted |
| Vpn.StopAndDisposeStep | android/app/src/main/java/com/mindful/android/services/MindfulVpnService.java:113-118 | the stop is marked on purpose and requested, after a disconnect that empties the slot and interrupts its holder unless closing the interface throws; blocked apps, restart flag, thread counter and interface unchanged |
| Vpn.ConnectStep | android/app/src/main/java/com/mindful/android/services/MindfulVpnService.java:71-93 | nothing blocked stops the service; otherwise the previous slot holder is interrupted, a new thread takes the slot and starts, the service goes foreground, and nothing else changes |
| Vpn.RestartStep | android/app/src/main/java/com/mindful/android/services/MindfulVpnService.java:61-65 | with apps blocked, the old worker is interrupted exactly once, whether or not closing throws, a new thread holds the slot and nothing else changes; with none, the service stops on purpose and no thread is created; the blocked apps, the restart flag and the interface are never changed |
| Vpn.StartCommandStep | android/app/src/main/java/com/mindful/android/services/MindfulVpnService.java:43-56 | a null intent does nothing; start reloads the blocked apps, connects and is sticky; anything else stops on purpose |
| Vpn.UpdateBlockedAppsStep | android/app/src/main/java/com/mindful/android/services/MindfulVpnService.java:186-190 | the new blocked set is kept; an empty one is exactly the stop-and-dispose of the state with that set: stops on purpose, empties the slot unless closing throws, and leaves a pending restart, the interface and the thread counter as they were; a non-empty one only marks a restart |
| Vpn.ApplicationStopStep | android/app/src/main/java/com/mindful/android/services/MindfulVpnService.java:195-200 | a pending restart is carried out and consumed; otherwise nothing changes |
| Vpn.WorkerRunStep | android/app/src/main/java/com/mindful/android/services/MindfulVpnService.java:127-169 | success installs an interface whose allow list is the blocked apps that are installed (see EstablishedRouting for what that list routes); a null from establish() stores no interface; socket, I/O or argument failures stop on purpose; a refused protect crashes the worker |
| Vpn.DestroyStep | android/app/src/main/java/com/mindful/android/services/MindfulVpnService.java:202-215 | the VPN is disconnected (the slot emptied and its holder interrupted unless closing throws), and a restart is requested iff the stop was not on purpose and the service is not already running |
| Vpn.EstablishedRouting | android/app/src/main/java/com/mindful/android/services/MindfulVpnService.java:146-156 | an established tunnel catches an app iff it is a blocked app the device resolves, or every app when the device resolves no blocked app |
| Vpn.NoResolvedBlockedAppRoutesEverything | android/app/src/main/java/com/mindful/android/services/MindfulVpnService.java:146-156 | when every blocked app is uninstalled, the tunnel also catches apps that were never blocked |
| Vpn.ClearSlotKeepsInv | android/app/src/main/java/com/mindful/android/services/MindfulVpnService.java:176-181 | emptying the slot keeps the single-worker invariant |
| Vpn.InstallFreshKeepsInv | android/app/src/main/java/com/mindful/android/services/MindfulVpnService.java:80-82 | installing a newly created thread keeps the invariant and never interrupts the new thread |
| Vpn.DisconnectKeepsInv | android/app/src/main/java/com/mindful/android/services/MindfulVpnService.java:98-108 | disconnecting keeps the invariant |
| Vpn.StopAndDisposeKeepsInv | android/app/src/main/java/com/mindful/android/services/MindfulVpnService.java:113-118 | stopping keeps the invariant |
| Vpn.ConnectKeepsInv | android/app/src/main/java/com/mindful/android/services/MindfulVpnService.java:71-93 | connecting keeps the invariant |
| Vpn.RestartKeepsInv | android/app/src/main/java/com/mindful/android/services/MindfulVpnService.java:195-200 | the safe-point restart keeps the invariant |
| Vpn.CommandKeepsInv | android/app/src/main/java/com/mindful/android/services/MindfulVpnService.java:43-56 | every command keeps the invariant |
| Vpn.UpdateKeepsInv | android/app/src/main/java/com/mindful/android/services/MindfulVpnService.java:186-190 | every update of the blocked apps keeps the invariant |
| Vpn.WorkerRunKeepsInv | android/app/src/main/java/com/mindful/android/services/MindfulVpnService.java:127-169 | every worker outcome keeps the invariant |
| Vpn.DestroyKeepsInv | android/app/src/main/java/com/mindful/android/services/MindfulVpnService.java:202-215 | destroying keeps the invariant |
| Vpn.ApplyKeepsInv | android/app/src/main/java/com/mindful/android/services/MindfulVpnService.java:43-215 | every event keeps the invariant |
| Vpn.RunKeepsInv | android/app/src/main/java/com/mindful/android/services/MindfulVpnService.java:176-181 | every sequence of events keeps the single-worker invariant |
| Vpn.AtMostOneLiveWorker | android/app/src/main/java/com/mindful/android/services/MindfulVpnService.java:176-181 | from a fresh service, any two uninterrupted created threads are the same one, and it is the one in the slot |
| Vpn.EmptyBlockedNeverConnects | android/app/src/main/java/com/mindful/android/services/MindfulVpnService.java:74-78 | connecting with nothing blocked creates no thread and stops on purpose, for every state; the slot ends empty unless closing the interface throws, when it is left as it was |
| Vpn.UpdateDefersRestart | android/app/src/main/java/com/mindful/android/services/MindfulVpnService.java:186-200 | for every state, a non-empty update leaves the worker running; the next safe point interrupts it and installs a new thread, even when closing the interface throws |
| Vpn.AllowedApplications | android/app/src/main/java/com/mindful/android/services/MindfulVpnService.java:146-152 | the allow list is exactly the blocked apps that resolve, skipping the rest; it is empty when none resolves, which the platform reads as every app |
| Vpn.MindfulVpnService.constructor | android/app/src/main/java/com/mindful/android/services/MindfulVpnService.java:37-41 | empty slot, no interface, no restart pending, stop not on purpose |
| Vpn.MindfulVpnService.OnStartCommand | android/app/src/main/java/com/mindful/android/services/MindfulVpnService.java:44-56 | the fields and the sticky result follow StartCommandStep |
| Vpn.MindfulVpnService.RestartVpnService | android/app/src/main/java/com/mindful/android/services/MindfulVpnService.java:61-65 | disconnect then connect |
| Vpn.MindfulVpnService.ConnectVpn | android/app/src/main/java/com/mindful/android/services/MindfulVpnService.java:71-93 | follows ConnectStep |
| Vpn.MindfulVpnService.DisconnectVpn | android/app/src/main/java/com/mindful/android/services/MindfulVpnService.java:98-108 | follows DisconnectStep |
| Vpn.MindfulVpnService.StopAndDisposeService | android/app/src/main/java/com/mindful/android/services/MindfulVpnService.java:113-118 | follows StopAndDisposeStep |
| Vpn.MindfulVpnService.SetVpnThread | android/app/src/main/java/com/mindful/android/services/MindfulVpnService.java:176-181 | follows SetVpnThreadStep |
| Vpn.MindfulVpnService.UpdateBlockedApps | android/app/src/main/java/com/mindful/android/services/MindfulVpnService.java:186-190 | follows UpdateBlockedAppsStep |
| Vpn.MindfulVpnService.OnApplicationStop | android/app/src/main/java/com/mindful/android/services/MindfulVpnService.java:195-200 | follows ApplicationStopStep |
| Vpn.MindfulVpnService.RunWorker | android/app/src/main/java/com/mindful/android/services/MindfulVpnService.java:127-169 | follows WorkerRunStep; the allowed set comes from the AllowedApplications loop |
| Vpn.MindfulVpnService.OnDestroy | android/app/src/main/java/com/mindful/android/services/MindfulVpnService.java:202-215 | follows DestroyStep |

## Left out

- Android platform calls are not modelled beyond their order in the `effects` trace: notifications, foreground state, `stopSelf`, `startService`, receiver registration, service binding, DND and logging.
- Reading shared preferences (`SharedPrefsHelper`) and usage statistics is left out; their results are parameters.
- Threads run no code of their own. A worker's run is an event the environment may deliver for any thread, interrupted or not. Concurrency between the worker and the service thread is not modelled.
- The `synchronized` block around `establish()` is not modelled.
- `Timer` and `CountDownTimer` scheduling is left out: a recheck is a pending slot that the environment fires, and ticks and the finish are events.
- `MindfulTrackerService.startStopFocusSession` is not part of this model. The focus service's calls to it are effects.
- The lock/unlock receiver's pause/resume and last-app broadcast are effects, because that receiver is not part of this model.
- `onBind` is left out, as are the service binders.
- The tracker's `onCreate`, which only looks up the usage service, is left out. So is the focus service's `onCreate`, which creates the tracker service connection and the notification builders; the connection appears only through the `trackerConnected` parameter and the tracker effects.
- Tracker.TrackerService.StartTrackingService: a repeated start registers a second `AppLaunchReceiver` and lock/unlock receiver in the Java code. Both then react to each launch, so two rechecks and two overlays are possible, and `onDestroy` unregisters and cancels only the newest pair. The model keeps one flag per receiver, so "at most one recheck pending" holds only in the model.
- Tracker.TrackerState: budgets are natural numbers. A negative stored budget would make `Timer.schedule` throw on a negative delay, and that path is not modelled.
- Tracker.TimerAppLaunchedStep: the 64-bit overflow of `(allowed − used)·1000` is not modelled, because budgets and usage are seconds in a day.
- Tracker.RecheckFiredStep: the slot is emptied when the recheck fires. The Java field keeps the spent `Timer` until the next cancel, which makes no observable difference.
- Tracker.TimerAppLaunchedStep: the usage query is a parameter, so its value is not tied to the device's clock.
- Tracker.StartCommandStep: `None` stands for an intent without an action. A null intent, which the platform delivers when it restarts a sticky service, makes `intent.getAction()` throw a `NullPointerException` in the Java code; that crash is not modelled.
- FocusCountdown.StartCommandStep: `None` stands for an intent without an action. A null intent makes `intent.getAction()` throw a `NullPointerException` in the Java code; that crash is not modelled.
- FocusCountdown.StartCommandStep: a second start while a countdown runs leaves the first `CountDownTimer` alive in the Java code. The model keeps one countdown flag.
- Vpn.DisconnectStep: one `closeFails` flag covers every `close()` in a single operation, so a restart whose disconnect fails also sees its connect-stop fail.
- Vpn.VpnState: `mBlockedApps` starts as `null` in Java, and calling `connectVpn` before a start command would throw. The model starts with the empty set.
- Vpn.StartCommandStep: `None` stands for a null intent. An intent without an action is `OtherCommand`, as in the Java `else` branch.
- Vpn.WorkerRunStep: the tunnel socket's own I/O (open, connect, configure) is summarised by the `SetupOutcome` parameter.
- FocusSessions.Decode: the JSON text is not parsed here. `parsed` is the library parser's reading of the text (`None` when it throws), so malformed JSON is modelled only through that parameter.
- Json.GetLong: the library also accepts numeric strings and truncates fractional numbers. JSON numbers here are integers in the `long` range, and strings are refused.
- Json.EqualsIgnoreCase: case folding is ASCII only.
- Json.GetString: the text form of a non-string element comes from the `render` parameter.
- JavaInts.Div: the contract states the sign of the quotient only. The full quotient–remainder relation is stated on `Rem`.
- PurgeTypes: the services do not use the enum. The overlay receives only a bedtime flag.

=== FILE: extensions.dfy ===
/** Small helpers shared by the services. */
module Extensions {

  /** A map lookup that falls back to `defaultValue` when the key is absent.
      The map is a value, so the lookup cannot modify it. */
  function GetOrDefault<K, V>(m: map<K, V>, key: K, defaultValue: V): (r: V)
    ensures key in m ==> r == m[key]
    ensures key !in m ==> r == defaultValue
  {
    if key in m then m[key] else defaultValue
  }

  /** Whatever the key, the answer is the default or one of the stored values. */
  lemma GetOrDefaultIsStoredOrDefault<K, V>(m: map<K, V>, key: K, defaultValue: V)
    ensures var r := GetOrDefault(m, key, defaultValue);
            r == defaultValue || r in m.Values
  {
    if key in m {
      assert m[key] in m.Values;
    }
  }
}

=== FILE: focus_session.dfy ===
/** The focus-session payload and its construction from a JSON object. */
module FocusSessions {
  import opened Wrappers
  import opened Json

  datatype FocusSession = FocusSession(toggleDnd: bool, durationSecs: Int64, distractingApps: set<string>)

  /** The field initialisers: what a session holds when nothing could be read. */
  const Neutral: FocusSession := FocusSession(false, 0, {})

  /** The strings read from every position of the array. */
  function ElementStrings(items: seq<Json>, render: Json -> string): set<string>
  {
    set i | 0 <= i < |items| :: GetString(items, i, render)
  }

  /** What the constructor leaves in the fields. `parsed` is the org.json parser's
      reading of `text` (None when it throws). The reads happen in order,
      toggleDnd, durationSeconds, distractingApps; the first one that throws
      ends the constructor, and every field not yet assigned keeps its initialiser. */
  function Decode(text: string, parsed: Option<Json>, render: Json -> string): (fs: FocusSession)
    ensures text == [] || parsed.None? ==> fs == Neutral
    ensures parsed.Some? && !parsed.value.JObject? ==> fs == Neutral
  {
    if text == [] then Neutral
    else match parsed
      case Some(JObject(o)) =>
        (match GetBoolean(o, "toggleDnd")
         case None => Neutral
         case Some(dnd) =>
           match GetLong(o, "durationSeconds")
           case None => FocusSession(dnd, 0, {})
           case Some(secs) =>
             match GetArray(o, "distractingApps")
             case None => FocusSession(dnd, secs, {})
             case Some(items) => FocusSession(dnd, secs, ElementStrings(items, render)))
      case _ => Neutral
  }

  /** The constructor: field assignments one after another inside a try block
      whose catch keeps whatever was already assigned. */
  method Parse(text: string, parsed: Option<Json>, render: Json -> string) returns (fs: FocusSession)
    ensures fs == Decode(text, parsed, render)
  {
    var toggleDnd := false;
    var durationSecs: Int64 := 0;
    var apps: set<string> := {};
    if text != [] && parsed.Some? && parsed.value.JObject? {
      var o := parsed.value.fields;
      var dnd := GetBoolean(o, "toggleDnd");
      if dnd.Some? {
        toggleDnd := dnd.value;
        var secs := GetLong(o, "durationSeconds");
        if secs.Some? {
          durationSecs := secs.value;
          var arr := GetArray(o, "distractingApps");
          if arr.Some? {
            var items := arr.value;
            var i := 0;
            while i < |items|
              invariant 0 <= i <= |items|
              invariant apps == set k | 0 <= k < i :: GetString(items, k, render)
            {
              apps := apps + {GetString(items, i, render)};
              i := i + 1;
            }
          }
        }
      }
    }
    fs := FocusSession(toggleDnd, durationSecs, apps);
  }

  /** A well-formed object gives exactly the values stored at the three keys
      (toggleDnd read as getBoolean reads it, so "TRUE" counts). */
  lemma DecodeWellFormed(text: string, o: map<string, Json>, render: Json -> string, dnd: bool)
    requires text != []
    requires GetBoolean(o, "toggleDnd") == Some(dnd)
    requires "durationSeconds" in o && o["durationSeconds"].JNum?
    requires "distractingApps" in o && o["distractingApps"].JArray?
    ensures var fs := Decode(text, Some(JObject(o)), render);
            && fs.toggleDnd == dnd
            && fs.durationSecs == o["durationSeconds"].n
            && fs.distractingApps == ElementStrings(o["distractingApps"].items, render)
  {
  }

  /** A toggleDnd that cannot be read ends the constructor before any assignment. */
  lemma DecodeStopsAtDnd(text: string, o: map<string, Json>, render: Json -> string)
    requires GetBoolean(o, "toggleDnd").None?
    ensures Decode(text, Some(JObject(o)), render) == Neutral
  {
  }

  /** A missing or mistyped durationSeconds keeps toggleDnd as read and the rest at their initialisers. */
  lemma DecodeStopsAtDuration(text: string, o: map<string, Json>, render: Json -> string, dnd: bool)
    requires text != []
    requires GetBoolean(o, "toggleDnd") == Some(dnd)
    requires !("durationSeconds" in o && o["durationSeconds"].JNum?)
    ensures Decode(text, Some(JObject(o)), render) == FocusSession(dnd, 0, {})
  {
  }

  /** A missing or mistyped array keeps the two scalars as read and no apps. */
  lemma DecodeStopsAtApps(text: string, o: map<string, Json>, render: Json -> string, dnd: bool)
    requires text != []
    requires GetBoolean(o, "toggleDnd") == Some(dnd)
    requires "durationSeconds" in o && o["durationSeconds"].JNum?
    requires !("distractingApps" in o && o["distractingApps"].JArray?)
    ensures Decode(text, Some(JObject(o)), render) == FocusSession(dnd, o["durationSeconds"].n, {})
  {
  }

  /** A string-spelled flag read before a later failure is kept. */
  lemma DecodeKeepsSpelledDnd(text: string, o: map<string, Json>, render: Json -> string)
    requires text != []
    requires "toggleDnd" in o && o["toggleDnd"] == JStr("TRUE")
    requires "durationSeconds" !in o
    ensures Decode(text, Some(JObject(o)), render) == FocusSession(true, 0, {})
  {
    BooleanSpellings();
  }

  /** The apps are exactly the array's elements (strings as they are), duplicates collapsed. */
  lemma ElementStringsExact(items: seq<Json>, render: Json -> string)
    ensures forall i :: 0 <= i < |items| && items[i].JStr? ==> items[i].s in ElementStrings(items, render)
    ensures forall a :: a in ElementStrings(items, render) ==>
              exists i :: 0 <= i < |items| && GetString(items, i, render) == a
    ensures |ElementStrings(items, render)| <= |items|
  {
    forall i | 0 <= i < |items| && items[i].JStr?
      ensures items[i].s in ElementStrings(items, render)
    {
      assert GetString(items, i, render) == items[i].s;
    }
    ImageOfPrefixBound(items, render, |items|);
  }

  lemma {:induction false} ImageOfPrefixBound(items: seq<Json>, render: Json -> string, n: nat)
    requires n <= |items|
    ensures |set i | 0 <= i < n :: GetString(items, i, render)| <= n
  {
    if n > 0 {
      ImageOfPrefixBound(items, render, n - 1);
      var smaller := set i | 0 <= i < n - 1 :: GetString(items, i, render);
      assert (set i | 0 <= i < n :: GetString(items, i, render))
          == smaller + {GetString(items, n - 1, render)};
    }
  }
}

=== FILE: focus_session_service.dfy ===
/** The one-shot focus-session countdown: start and stop decisions, the
    progress text shown on every tick, and the terminal message choice. */
module FocusCountdown {
  import opened Wrappers
  import opened JavaInts
  import opened Json
  import opened FocusSessions

  const Prefix: string := "Focus session will end in "

  /** The time left split as `createNotification` does it, on the int seconds. */
  datatype Clock = Clock(hours: int, minutes: int, seconds: int)

  function Split(totalLeftSeconds: int): (c: Clock)
    ensures c.hours * 3600 + c.minutes * 60 + c.seconds == totalLeftSeconds
    ensures -60 < c.minutes < 60 && -60 < c.seconds < 60
    ensures totalLeftSeconds >= 0 ==> 0 <= c.minutes && 0 <= c.seconds && 0 <= c.hours
    ensures totalLeftSeconds < 0 ==> c.hours <= 0 && c.minutes <= 0 && c.seconds <= 0
    ensures c.hours > 0 ==> totalLeftSeconds >= 3600
  {
    var minutesTotal := Div(totalLeftSeconds, 60);
    var c := Clock(Div(minutesTotal, 60), Rem(minutesTotal, 60), Rem(totalLeftSeconds, 60));
    assert minutesTotal * 60 + c.seconds == totalLeftSeconds;
    assert c.hours * 60 + c.minutes == minutesTotal;
    assert (c.hours * 60 + c.minutes) * 60 == c.hours * 3600 + c.minutes * 60;
    c
  }

  /** `(int) (millisUntilFinished / 1000)`. */
  function LeftSeconds(millisUntilFinished: int): (s: int)
    ensures IsInt32(s)
    ensures 0 <= millisUntilFinished < 1000 * (TWO_32 / 2) ==> s * 1000 <= millisUntilFinished < s * 1000 + 1000
  {
    var q := Div(millisUntilFinished, 1000);
    assert 0 <= millisUntilFinished ==> q * 1000 + Rem(millisUntilFinished, 1000) == millisUntilFinished;
    ToInt32(q)
  }

  /** The countdown text. Fields are plain decimal numbers, not zero-padded;
      the hour field appears only when hours are positive. */
  function CountdownText(c: Clock): (msg: string)
    ensures Prefix <= msg
    ensures c.hours > 0 ==>
              msg == Prefix + IntToString(c.hours) + ":" + IntToString(c.minutes) + ":" + IntToString(c.seconds)
                     + (if c.hours > 1 then " hours" else " hour")
    ensures c.hours <= 0 ==> msg == Prefix + IntToString(c.minutes) + ":" + IntToString(c.seconds) + " minutes"
  {
    if c.hours > 0 then
      Prefix + IntToString(c.hours) + ":" + IntToString(c.minutes) + ":" + IntToString(c.seconds)
      + (if c.hours > 1 then " hours" else " hour")
    else
      Prefix + IntToString(c.minutes) + ":" + IntToString(c.seconds) + " minutes"
  }

  predicate EndsWith(s: string, suffix: string)
  {
    |suffix| <= |s| && s[|s| - |suffix|..] == suffix
  }

  /** The unit word follows the hours: " hours" exactly when more than one hour
      is left, " hour" for exactly one, " minutes" when no full hour is left. */
  lemma CountdownTextUnit(c: Clock)
    ensures Prefix <= CountdownText(c)
    ensures EndsWith(CountdownText(c), " hours") <==> c.hours > 1
    ensures EndsWith(CountdownText(c), " minutes") <==> c.hours <= 0
    ensures EndsWith(CountdownText(c), ":" + IntToString(c.seconds) + " hour") <==> c.hours == 1
  {
    var t := CountdownText(c);
    var sec := IntToString(c.seconds);
    if c.hours > 0 {
      var body := Prefix + IntToString(c.hours) + ":" + IntToString(c.minutes) + ":" + sec;
      assert Prefix <= body;
      if c.hours > 1 {
        assert t == body + " hours";
        assert t[|t| - 6..] == " hours";
        assert t[|t| - 1] == 's';
        assert t[|t| - 8..] != " minutes" by { assert t[|t| - 2] == 'r'; }
        assert !EndsWith(t, ":" + sec + " hour");
      } else {
        assert t == body + " hour";
        assert t[|t| - 1] == 'r';
        assert (body + " hour")[|t| - |":" + sec + " hour"|..] == ":" + sec + " hour";
      }
    } else {
      var body := Prefix + IntToString(c.minutes) + ":" + sec;
      assert Prefix <= body;
      assert t == body + " minutes";
      assert t[|t| - 8..] == " minutes";
      assert t[|t| - 1] == 's';
      assert t[|t| - 6..] != " hours" by { assert t[|t| - 2] == 'e'; }
    }
  }

  /** Sixty-five seconds read "1:5 minutes": no zero padding. */
  lemma NoZeroPadding()
    ensures CountdownText(Split(65)) == Prefix + "1:5 minutes"
  {
    assert Div(65, 60) == 1 && Rem(65, 60) == 5;
    assert Div(1, 60) == 0 && Rem(1, 60) == 1;
    assert Split(65) == Clock(0, 1, 5);
    assert NatToString(1) == [DigitChar(1)] == "1";
    assert NatToString(5) == [DigitChar(5)] == "5";
    assert CountdownText(Clock(0, 1, 5)) == Prefix + "1" + ":" + "5" + " minutes";
  }

  /** What one progress notification shows: the text, the bar maximum
      `(int) (mCountDownDurationMs / 1000)` and the seconds left. */
  datatype Progress = Progress(text: string, max: int, current: int)

  function ProgressFor(countDownDurationMs: int, millisUntilFinished: int): (p: Progress)
    ensures p.current == LeftSeconds(millisUntilFinished)
    ensures p.text == CountdownText(Split(p.current))
    ensures p.max == ToInt32(Div(countDownDurationMs, 1000))
    ensures 0 <= countDownDurationMs < 1000 * (TWO_32 / 2) ==>
              0 <= p.max && p.max * 1000 <= countDownDurationMs < p.max * 1000 + 1000
  {
    var s := LeftSeconds(millisUntilFinished);
    assert 0 <= countDownDurationMs ==>
      Div(countDownDurationMs, 1000) * 1000 + Rem(countDownDurationMs, 1000) == countDownDurationMs;
    Progress(CountdownText(Split(s)), ToInt32(Div(countDownDurationMs, 1000)), s)
  }

  const SuccessText: string :=
    "Congratulations! " + "You’ve successfully completed your focus session. Great job staying on track! Keep up the amazing work!"
  const GaveUpText: string :=
    "You gave up! " + "Don't worry, you can do better next time. Every effort counts - just keep going"

  /** The text of the terminal notification: one for success, another for giving up. */
  function TerminalText(isSuccessful: bool): (msg: string)
    ensures msg == SuccessText || msg == GaveUpText
    ensures msg == SuccessText <==> isSuccessful
  {
    assert SuccessText[0] == 'C' && GaveUpText[0] == 'Y';
    if isSuccessful then SuccessText else GaveUpText
  }

  /** The session length in milliseconds: `durationSecs * 1000L`, a long. */
  function DurationMs(fs: FocusSession): (ms: int)
    ensures IsInt64(fs.durationSecs * 1000) ==> ms == fs.durationSecs * 1000
    ensures IsInt64(ms)
  {
    ToInt64(fs.durationSecs * 1000)
  }

  // ---------------------------------------------------------------------
  // The service

  datatype Command = StartSession | OtherCommand

  /** What the service does outside itself, in order. */
  datatype Effect =
    | TrackerFocusRequested(apps: set<string>)  // bind the tracker; on connect it starts the focus block
    | TrackerFocusCleared                       // startStopFocusSession(null) on the bound tracker
    | DndToggled(on: bool)
    | ForegroundStarted(progress: Progress)
    | ProgressShown(progress: Progress)
    | StopSelfRequested
    | TerminalShown(isSuccessful: bool)
    | TrackerUnbound
    | ForegroundRemoved

  datatype FocusState = FocusState(
    session: Option<FocusSession>,
    countDownDurationMs: int,
    countdownRunning: bool,
    effects: seq<Effect>)

  const Initial: FocusState := FocusState(None, 0, false, [])

  /** A running countdown always has a session to read at its end. */
  predicate Valid(s: FocusState) { s.countdownRunning ==> s.session.Some? }

  /** The DND switch a session performs: one toggle when it asked for DND, none otherwise. */
  function DndOf(fs: FocusSession, on: bool): seq<Effect>
  {
    if fs.toggleDnd then [DndToggled(on)] else []
  }

  /** Request the tracker's block, switch DND on if asked, go foreground with
      the full duration left, and run the countdown. */
  function StartTimer(s: FocusState): (t: FocusState)
    requires s.session.Some?
    ensures t.countdownRunning && Valid(t)
    ensures t.session == s.session && t.countDownDurationMs == s.countDownDurationMs
    ensures t.effects == s.effects + [TrackerFocusRequested(s.session.value.distractingApps)]
                         + DndOf(s.session.value, true)
                         + [ForegroundStarted(ProgressFor(s.countDownDurationMs, s.countDownDurationMs))]
  {
    var fs := s.session.value;
    s.(countdownRunning := true,
       effects := s.effects + [TrackerFocusRequested(fs.distractingApps)]
                  + DndOf(fs, true)
                  + [ForegroundStarted(ProgressFor(s.countDownDurationMs, s.countDownDurationMs))])
  }

  /** onStartCommand: the start command reads the session; a session with no apps
      starts nothing. Any other command gives up. A missing action is ignored. */
  function StartCommandStep(s: FocusState, action: Option<Command>, text: string, parsed: Option<Json>,
                          render: Json -> string): (r: (FocusState, bool))
    ensures Valid(s) ==> Valid(r.0)
    ensures action.None? ==> r == (s, false)
    ensures action == Some(StartSession) ==>
              var fs := Decode(text, parsed, render);
              && r.0.session == Some(fs)
              && r.0.countDownDurationMs == DurationMs(fs)
              && (r.1 <==> fs.distractingApps != {})
              && (fs.distractingApps == {} ==> r.0.countdownRunning == s.countdownRunning && r.0.effects == s.effects)
              && (fs.distractingApps != {} ==>
                    && r.0.countdownRunning
                    && r.0.effects == s.effects + [TrackerFocusRequested(fs.distractingApps)] + DndOf(fs, true)
                         + [ForegroundStarted(ProgressFor(DurationMs(fs), DurationMs(fs)))])
    ensures action == Some(OtherCommand) ==>
              && !r.1
              && r.0 == s.(effects := s.effects
                             + (if s.session.Some? && s.session.value.toggleDnd then [DndToggled(false)] else [])
                             + [StopSelfRequested, TerminalShown(false)])
  {
    match action
    case None => (s, false)
    case Some(StartSession) =>
      var fs := Decode(text, parsed, render);
      var t := s.(session := Some(fs), countDownDurationMs := DurationMs(fs));
      if fs.distractingApps != {} then (StartTimer(t), true) else (t, false)
    case Some(OtherCommand) =>
      var dnd := if s.session.Some? && s.session.value.toggleDnd then [DndToggled(false)] else [];
      (s.(effects := s.effects + dnd + [StopSelfRequested, TerminalShown(false)]), false)
  }

  /** onTick: refresh the progress notification while the countdown runs. */
  function TickStep(s: FocusState, millisUntilFinished: int): (t: FocusState)
    ensures s.countdownRunning ==>
              t == s.(effects := s.effects + [ProgressShown(ProgressFor(s.countDownDurationMs, millisUntilFinished))])
    ensures !s.countdownRunning ==> t == s
  {
    if s.countdownRunning then
      s.(effects := s.effects + [ProgressShown(ProgressFor(s.countDownDurationMs, millisUntilFinished))])
    else s
  }

  /** onFinish: clear the tracker's focus block if bound, undo DND if the session
      turned it on, stop and congratulate. */
  function FinishStep(s: FocusState, trackerConnected: bool): (t: FocusState)
    requires Valid(s)
    ensures Valid(t) && !t.countdownRunning
    ensures !s.countdownRunning ==> t == s
    ensures s.countdownRunning ==>
              t == s.(countdownRunning := false,
                      effects := s.effects
                        + (if trackerConnected then [TrackerFocusCleared] else [])
                        + DndOf(s.session.value, false)
                        + [StopSelfRequested, TerminalShown(true)])
  {
    if !s.countdownRunning then s
    else
      s.(countdownRunning := false,
         effects := s.effects
           + (if trackerConnected then [TrackerFocusCleared] else [])
           + (if s.session.value.toggleDnd then [DndToggled(false)] else [])
           + [StopSelfRequested, TerminalShown(true)])
  }

  /** onDestroy: unbind the tracker, cancel the countdown, drop the foreground notification. */
  function DestroyStep(s: FocusState): (t: FocusState)
    ensures t == s.(countdownRunning := false, effects := s.effects + [TrackerUnbound, ForegroundRemoved])
  {
    s.(countdownRunning := false, effects := s.effects + [TrackerUnbound, ForegroundRemoved])
  }

  function DndSwitches(effects: seq<Effect>): seq<bool>
  {
    if effects == [] then []
    else (if effects[0].DndToggled? then [effects[0].on] else []) + DndSwitches(effects[1..])
  }

  lemma {:induction false} DndSwitchesAppend(a: seq<Effect>, b: seq<Effect>)
    ensures DndSwitches(a + b) == DndSwitches(a) + DndSwitches(b)
  {
    if a != [] {
      DndSwitchesAppend(a[1..], b);
      assert (a + b)[1..] == a[1..] + b;
    } else {
      assert a + b == b;
    }
  }

  lemma DndSwitchesOfDnd(fs: FocusSession, on: bool)
    ensures DndSwitches(DndOf(fs, on)) == if fs.toggleDnd then [on] else []
  {
    if fs.toggleDnd {
      assert DndOf(fs, on)[1..] == [];
    }
  }

  lemma {:induction false} DndSwitchesAround(pre: seq<Effect>, fs: FocusSession, on: bool, post: seq<Effect>)
    requires forall i :: 0 <= i < |pre| ==> !pre[i].DndToggled?
    requires forall i :: 0 <= i < |post| ==> !post[i].DndToggled?
    ensures DndSwitches(pre + DndOf(fs, on) + post) == if fs.toggleDnd then [on] else []
  {
    NoDndSwitches(pre);
    NoDndSwitches(post);
    DndSwitchesOfDnd(fs, on);
    DndSwitchesAppend(pre, DndOf(fs, on));
    DndSwitchesAppend(pre + DndOf(fs, on), post);
  }

  lemma {:induction false} NoDndSwitches(e: seq<Effect>)
    requires forall i :: 0 <= i < |e| ==> !e[i].DndToggled?
    ensures DndSwitches(e) == []
  {
    if e != [] {
      NoDndSwitches(e[1..]);
    }
  }

  /** Starting a session switches DND on exactly when the session asks for it and
      has apps to block. */
  lemma StartSwitchesDnd(s: FocusState, text: string, parsed: Option<Json>, render: Json -> string)
    ensures var fs := Decode(text, parsed, render);
            var t := StartCommandStep(s, Some(StartSession), text, parsed, render).0;
            DndSwitches(t.effects) == DndSwitches(s.effects) + (if fs.toggleDnd && fs.distractingApps != {} then [true] else [])
  {
    var fs := Decode(text, parsed, render);
    var t := StartCommandStep(s, Some(StartSession), text, parsed, render).0;
    if fs.distractingApps != {} {
      var pre := [TrackerFocusRequested(fs.distractingApps)];
      var post := [ForegroundStarted(ProgressFor(t.countDownDurationMs, t.countDownDurationMs))];
      assert t.effects == s.effects + (pre + DndOf(fs, true) + post);
      DndSwitchesAround(pre, fs, true, post);
      DndSwitchesAppend(s.effects, pre + DndOf(fs, true) + post);
    }
  }

  /** Ending a session, by finishing or by giving up, switches DND off exactly when
      the current session asked for it (and, when finishing, the countdown was running). */
  lemma EndSwitchesDnd(s: FocusState, trackerConnected: bool, giveUp: bool, text: string, parsed: Option<Json>,
                       render: Json -> string)
    requires Valid(s)
    ensures var t := if giveUp then StartCommandStep(s, Some(OtherCommand), text, parsed, render).0
                     else FinishStep(s, trackerConnected);
            var asked := s.session.Some? && s.session.value.toggleDnd && (giveUp || s.countdownRunning);
            DndSwitches(t.effects) == DndSwitches(s.effects) + (if asked then [false] else [])
  {
    if giveUp {
      var fs := if s.session.Some? then s.session.value else Neutral;
      var t := StartCommandStep(s, Some(OtherCommand), text, parsed, render).0;
      assert t.effects == s.effects + ([] + DndOf(fs, false) + [StopSelfRequested, TerminalShown(false)]);
      DndSwitchesAround([], fs, false, [StopSelfRequested, TerminalShown(false)]);
      DndSwitchesAppend(s.effects, [] + DndOf(fs, false) + [StopSelfRequested, TerminalShown(false)]);
    } else if s.countdownRunning {
      var fs := s.session.value;
      var pre := if trackerConnected then [TrackerFocusCleared] else [];
      var t := FinishStep(s, trackerConnected);
      assert t.effects == s.effects + (pre + DndOf(fs, false) + [StopSelfRequested, TerminalShown(true)]);
      DndSwitchesAround(pre, fs, false, [StopSelfRequested, TerminalShown(true)]);
      DndSwitchesAppend(s.effects, pre + DndOf(fs, false) + [StopSelfRequested, TerminalShown(true)]);
    }
  }

  /** The DND switches of one session from a fresh service: on then off for a
      DND session with apps; none for a session without DND; and, for a DND
      session without apps that is then given up, a lone switch off: giving up
      looks at the session's flag, not at whether its countdown ever started. */
  lemma DndTraceOfOneSession(text: string, parsed: Option<Json>, render: Json -> string,
                                trackerConnected: bool, giveUp: bool)
    ensures var started := StartCommandStep(Initial, Some(StartSession), text, parsed, render).0;
            var ended := if giveUp then StartCommandStep(started, Some(OtherCommand), text, parsed, render).0
                         else FinishStep(started, trackerConnected);
            var fs := Decode(text, parsed, render);
            DndSwitches(ended.effects) ==
              if !fs.toggleDnd then []
              else if fs.distractingApps == {} then (if giveUp then [false] else [])
              else [true, false]
  {
    var started := StartCommandStep(Initial, Some(StartSession), text, parsed, render).0;
    StartSwitchesDnd(Initial, text, parsed, render);
    EndSwitchesDnd(started, trackerConnected, giveUp, text, parsed, render);
  }

  /** An empty input string never starts a countdown. */
  lemma EmptyPayloadNeverRuns(parsed: Option<Json>, render: Json -> string)
    ensures var r := StartCommandStep(Initial, Some(StartSession), "", parsed, render);
            && !r.1 && !r.0.countdownRunning && r.0.session == Some(Neutral)
  {
  }

  /** The service object: its fields change as commands and countdown callbacks arrive. */
  class FocusSessionService {
    var session: Option<FocusSession>
    var countDownDurationMs: int
    var countdownRunning: bool
    var effects: seq<Effect>

    function State(): FocusState
      reads this
    {
      FocusState(session, countDownDurationMs, countdownRunning, effects)
    }

    constructor ()
      ensures State() == Initial
    {
      session := None;
      countDownDurationMs := 0;
      countdownRunning := false;
      effects := [];
    }

    method OnStartCommand(action: Option<Command>, text: string, parsed: Option<Json>, render: Json -> string)
      returns (sticky: bool)
      modifies this
      ensures (State(), sticky) == StartCommandStep(old(State()), action, text, parsed, render)
    {
      if action.None? {
        return false;
      }
      if action.value == StartSession {
        var fs := Parse(text, parsed, render);
        session := Some(fs);
        countDownDurationMs := ToInt64(fs.durationSecs * 1000);
        if fs.distractingApps != {} {
          StartFocusTimer();
          return true;
        }
      } else {
        ghost var dnd := if session.Some? && session.value.toggleDnd then [DndToggled(false)] else [];
        if session.Some? && session.value.toggleDnd {
          effects := effects + [DndToggled(false)];
        }
        effects := effects + [StopSelfRequested];
        ShowTerminalNotification(false);
        assert effects == old(effects) + dnd + [StopSelfRequested, TerminalShown(false)];
        return false;
      }
      return false;
    }

    method StartFocusTimer()
      requires session.Some?
      modifies this
      ensures State() == StartTimer(old(State()))
    {
      effects := effects + [TrackerFocusRequested(session.value.distractingApps)];
      if session.value.toggleDnd {
        effects := effects + [DndToggled(true)];
      }
      effects := effects + [ForegroundStarted(ProgressFor(countDownDurationMs, countDownDurationMs))];
      countdownRunning := true;
    }

    method ShowTerminalNotification(isSuccessful: bool)
      modifies this
      ensures session == old(session) && countDownDurationMs == old(countDownDurationMs)
      ensures countdownRunning == old(countdownRunning)
      ensures effects == old(effects) + [TerminalShown(isSuccessful)]
    {
      effects := effects + [TerminalShown(isSuccessful)];
    }

    method OnTick(millisUntilFinished: int)
      modifies this
      ensures State() == TickStep(old(State()), millisUntilFinished)
    {
      if countdownRunning {
        effects := effects + [ProgressShown(ProgressFor(countDownDurationMs, millisUntilFinished))];
      }
    }

    method OnFinish(trackerConnected: bool)
      requires Valid(State())
      modifies this
      ensures State() == FinishStep(old(State()), trackerConnected)
    {
      if !countdownRunning {
        return;
      }
      countdownRunning := false;
      if trackerConnected {
        effects := effects + [TrackerFocusCleared];
      }
      if session.value.toggleDnd {
        effects := effects + [DndToggled(false)];
      }
      effects := effects + [StopSelfRequested];
      ShowTerminalNotification(true);
    }

    method OnDestroy()
      modifies this
      ensures State() == DestroyStep(old(State()))
    {
      effects := effects + [TrackerUnbound];
      countdownRunning := false;
      effects := effects + [ForegroundRemoved];
    }
  }
}

=== FILE: java_ints.dfy ===
/** Java's fixed-width integers, its truncating division and Integer.toString,
    written out over Dafny's unbounded integers. */
module JavaInts {
  import opened Wrappers

  const TWO_32: int := 0x1_0000_0000
  const TWO_64: int := 0x1_0000_0000_0000_0000

  predicate IsInt32(x: int) { -TWO_32 / 2 <= x < TWO_32 / 2 }
  predicate IsInt64(x: int) { -TWO_64 / 2 <= x < TWO_64 / 2 }

  /** The `(int)` narrowing cast: keeps the low 32 bits, two's complement. */
  function ToInt32(x: int): (r: int)
    ensures IsInt32(r)
    ensures (x - r) % TWO_32 == 0
    ensures IsInt32(x) ==> r == x
  {
    var m := x % TWO_32;
    if m >= TWO_32 / 2 then m - TWO_32 else m
  }

  /** Wrap-around of a 64-bit `long` result. */
  function ToInt64(x: int): (r: int)
    ensures IsInt64(r)
    ensures (x - r) % TWO_64 == 0
    ensures IsInt64(x) ==> r == x
  {
    var m := x % TWO_64;
    if m >= TWO_64 / 2 then m - TWO_64 else m
  }

  /** Java's `/`: the quotient is rounded toward zero. */
  function Div(a: int, b: int): (q: int)
    requires b > 0
    ensures 0 <= a ==> 0 <= q
    ensures a < 0 ==> q <= 0
  {
    if a >= 0 then a / b else -((-a) / b)
  }

  /** Java's `%`: the remainder takes the sign of the dividend and is smaller than the divisor. */
  function Rem(a: int, b: int): (r: int)
    requires b > 0
    ensures Div(a, b) * b + r == a
    ensures 0 <= a ==> 0 <= r < b
    ensures a < 0 ==> -b < r <= 0
  {
    EuclidNat(if a >= 0 then a else -a, b);
    a - Div(a, b) * b
  }

  lemma EuclidNat(a: nat, b: int)
    requires b > 0
    ensures a - a / b * b == a % b
    ensures 0 <= a % b < b
  {
  }

  // ---------------------------------------------------------------------
  // Integer.toString

  function DigitChar(d: int): (c: char)
    requires 0 <= d < 10
    ensures '0' <= c <= '9'
  {
    ['0', '1', '2', '3', '4', '5', '6', '7', '8', '9'][d]
  }

  predicate IsDigit(c: char) { '0' <= c <= '9' }

  predicate AllDigits(s: string) { forall i :: 0 <= i < |s| ==> IsDigit(s[i]) }

  predicate AllDigitsFrom(s: string, k: nat) { forall i :: k <= i < |s| ==> IsDigit(s[i]) }

  function DigitValue(c: char): (d: int)
    requires IsDigit(c)
    ensures 0 <= d < 10
  {
    c as int - '0' as int
  }

  /** Decimal digits of a natural number, most significant first, no leading zero. */
  function NatToString(n: nat): (s: string)
    ensures |s| > 0
    ensures forall i :: 0 <= i < |s| ==> IsDigit(s[i])
    ensures |s| > 1 ==> s[0] != '0'
  {
    if n < 10 then [DigitChar(n)] else NatToString(n / 10) + [DigitChar(n % 10)]
  }

  /** The integer rendered by string concatenation: a minus sign for negatives. */
  function IntToString(i: int): (s: string)
    ensures |s| > 0
    ensures s[0] == '-' <==> i < 0
    ensures i >= 0 ==> AllDigits(s)
  {
    if i < 0 then "-" + NatToString(-i) else NatToString(i)
  }

  /** Value of a string of decimal digits (the reference reading of NatToString). */
  function DigitsValue(s: string): (v: nat)
    requires forall i :: 0 <= i < |s| ==> IsDigit(s[i])
  {
    if s == [] then 0 else DigitsValue(s[..|s| - 1]) * 10 + DigitValue(s[|s| - 1])
  }

  /** Integer.parseInt restricted to what Integer.toString produces. */
  function ParseInt(s: string): (r: Option<int>)
  {
    if |s| > 0 && AllDigits(s) then Some(DigitsValue(s))
    else if |s| > 1 && s[0] == '-' && AllDigitsFrom(s, 1) then
      Some(-(DigitsValue(s[1..]) as int))
    else None
  }

  lemma {:induction false} NatToStringRoundTrip(n: nat)
    ensures DigitsValue(NatToString(n)) == n
  {
    var s := NatToString(n);
    if n >= 10 {
      NatToStringRoundTrip(n / 10);
      assert s[..|s| - 1] == NatToString(n / 10);
    }
  }

  /** Integer.toString has an inverse, so distinct integers render differently. */
  lemma IntToStringRoundTrip(i: int)
    ensures ParseInt(IntToString(i)) == Some(i)
  {
    if i < 0 {
      NegativeRoundTrip(-i);
    } else {
      NonNegativeRoundTrip(i);
    }
  }

  lemma NonNegativeRoundTrip(n: nat)
    ensures ParseInt(IntToString(n)) == Some(n)
  {
    var s := NatToString(n);
    assert IntToString(n) == s;
    assert AllDigits(s);
    NatToStringRoundTrip(n);
  }

  lemma NegativeRoundTrip(n: nat)
    requires n > 0
    ensures ParseInt(IntToString(-(n as int))) == Some(-(n as int))
  {
    var t := NatToString(n);
    var s := "-" + t;
    assert IntToString(-(n as int)) == s;
    NatToStringRoundTrip(n);
    assert s[1..] == t;
    assert !IsDigit(s[0]);
    assert !AllDigits(s);
    assert AllDigitsFrom(s, 1) by {
      forall k | 1 <= k < |s| ensures IsDigit(s[k]) {
        assert s[k] == t[k - 1];
      }
    }
  }

  lemma IntToStringInjective(i: int, j: int)
    requires IntToString(i) == IntToString(j)
    ensures i == j
  {
    IntToStringRoundTrip(i);
    IntToStringRoundTrip(j);
  }
}

=== FILE: json.dfy ===
/** An already-parsed JSON value and the typed getters of Android's org.json
    (JSONObject.getBoolean/getLong/getJSONArray, JSONArray.getString).
    A getter that would throw JSONException yields None. */
module Json {
  import opened Wrappers
  import opened JavaInts

  datatype Json =
    | JNull
    | JBool(b: bool)
    | JNum(n: Int64)
    | JStr(s: string)
    | JArray(items: seq<Json>)
    | JObject(fields: map<string, Json>)

  type Int64 = x: int | IsInt64(x)

  function LowerAscii(c: char): (l: char)
    ensures 'A' <= c <= 'Z' ==> l as int == c as int + 32
    ensures !('A' <= c <= 'Z') ==> l == c
  {
    if 'A' <= c <= 'Z' then (c as int + 32) as char else c
  }

  /** ASCII case-insensitive comparison, as String.equalsIgnoreCase does on ASCII text. */
  predicate EqualsIgnoreCase(s: string, t: string)
    ensures s == t ==> EqualsIgnoreCase(s, t)
  {
    |s| == |t| && forall i :: 0 <= i < |s| ==> LowerAscii(s[i]) == LowerAscii(t[i])
  }

  /** getBoolean: a JSON boolean, or a string spelling "true"/"false" in any case. */
  function AsBoolean(v: Json): (r: Option<bool>)
    ensures v.JBool? ==> r == Some(v.b)
    ensures r.Some? ==> v.JBool? || v.JStr?
    ensures v.JStr? && r.Some? ==> EqualsIgnoreCase(v.s, if r.value then "true" else "false")
    ensures v.JStr? && EqualsIgnoreCase(v.s, "true") ==> r == Some(true)
    ensures v.JStr? && EqualsIgnoreCase(v.s, "false") ==> r == Some(false)
  {
    match v
    case JBool(b) => Some(b)
    case JStr(s) =>
      if EqualsIgnoreCase(s, "true") then Some(true)
      else if EqualsIgnoreCase(s, "false") then Some(false)
      else None
    case _ => None
  }

  function GetBoolean(obj: map<string, Json>, key: string): (r: Option<bool>)
    ensures key !in obj ==> r.None?
    ensures key in obj ==> r == AsBoolean(obj[key])
  {
    if key in obj then AsBoolean(obj[key]) else None
  }

  /** Spellings the library accepts for a boolean, and ones it refuses. */
  lemma BooleanSpellings()
    ensures AsBoolean(JStr("TRUE")) == Some(true) && AsBoolean(JStr("False")) == Some(false)
    ensures AsBoolean(JStr("yes")).None? && AsBoolean(JStr("1")).None? && AsBoolean(JNum(1)).None?
  {
    assert EqualsIgnoreCase("TRUE", "true") by {
      assert forall i :: 0 <= i < 4 ==> LowerAscii("TRUE"[i]) == "true"[i];
    }
    assert EqualsIgnoreCase("False", "false") by {
      assert forall i :: 0 <= i < 5 ==> LowerAscii("False"[i]) == "false"[i];
    }
    assert !EqualsIgnoreCase("False", "true");
    assert !EqualsIgnoreCase("TRUE", "false");
  }

  /** getLong: a JSON number. */
  function GetLong(obj: map<string, Json>, key: string): (r: Option<Int64>)
    ensures r.Some? <==> key in obj && obj[key].JNum?
    ensures r.Some? ==> r.value == obj[key].n
  {
    if key in obj && obj[key].JNum? then Some(obj[key].n) else None
  }

  /** getJSONArray: a JSON array. */
  function GetArray(obj: map<string, Json>, key: string): (r: Option<seq<Json>>)
    ensures r.Some? <==> key in obj && obj[key].JArray?
    ensures r.Some? ==> r.value == obj[key].items
  {
    if key in obj && obj[key].JArray? then Some(obj[key].items) else None
  }

  /** JSONArray.getString: a string element as it is; any other element in the
      text form `render` gives it (String.valueOf in the library). Never fails
      for an index inside the array. */
  function GetString(items: seq<Json>, i: nat, render: Json -> string): (r: string)
    requires i < |items|
    ensures items[i].JStr? ==> r == items[i].s
    ensures !items[i].JStr? ==> r == render(items[i])
  {
    if items[i].JStr? then items[i].s else render(items[i])
  }
}

=== FILE: purge_type.dfy ===
/** Why a block was shown, with its stable small-integer wire form. */
module PurgeTypes {

  datatype PurgeType = FocusSession | BedtimeRoutine | AppTimerOut | AppLaunchLimitOut | GroupTimerOut

  /** The variants in declaration order. */
  const Declared: seq<PurgeType> := [FocusSession, BedtimeRoutine, AppTimerOut, AppLaunchLimitOut, GroupTimerOut]

  /** Decoding: 0..4 select the variant declared at that position;
      any other integer falls back to AppTimerOut. */
  function FromInteger(x: int): (p: PurgeType)
    ensures 0 <= x < |Declared| ==> p == Declared[x]
    ensures !(0 <= x < |Declared|) ==> p == AppTimerOut
  {
    match x
    case 0 => FocusSession
    case 1 => BedtimeRoutine
    case 2 => AppTimerOut
    case 3 => AppLaunchLimitOut
    case 4 => GroupTimerOut
    case _ => AppTimerOut
  }

  /** Encoding: every variant maps to its declaration position. */
  function ToInteger(p: PurgeType): (r: int)
    ensures 0 <= r < |Declared| && Declared[r] == p
  {
    match p
    case FocusSession => 0
    case BedtimeRoutine => 1
    case AppTimerOut => 2
    case AppLaunchLimitOut => 3
    case GroupTimerOut => 4
  }

  lemma FromToInteger(p: PurgeType)
    ensures FromInteger(ToInteger(p)) == p
  {
  }

  lemma ToFromInteger(x: int)
    requires 0 <= x <= 4
    ensures ToInteger(FromInteger(x)) == x
  {
  }

  lemma ToIntegerInjective(p: PurgeType, q: PurgeType)
    requires ToInteger(p) == ToInteger(q)
    ensures p == q
  {
    FromToInteger(p);
    FromToInteger(q);
  }

  lemma OutOfRangeIsAppTimerOut(x: int)
    requires x < 0 || 4 < x
    ensures FromInteger(x) == AppTimerOut
  {
  }
}

=== FILE: tracker_service.dfy ===
/** The usage tracking controller: per-app daily timers, the bedtime set, the
    purged set and the single pending recheck, driven by commands and by
    app-launch events. */
module Tracker {
  import opened Wrappers
  import opened Extensions

  datatype Command = StartService | StartBedtime | StopBedtime | MidnightReset | OtherCommand

  /** The one scheduled recheck: the package it will purge and its delay. */
  datatype Recheck = Recheck(pkg: string, delayMs: int)

  /** What the controller does outside itself, in order. */
  datatype Effect =
    | OverlayRequested(pkg: string, isBedtime: bool)  // start the overlay dialog service
    | ForegroundStarted
    | StopSelfRequested                               // stopForeground + stopSelf
    | LastAppBroadcast                                // re-announce the app in front
    | TrackingPauseResumed(shouldPause: bool)
    | MidnightAlert
    | RestartRequested

  datatype TrackerState = TrackerState(
    running: bool,
    stoppedForcefully: bool,
    lockUnlockReceiver: bool,   // registered and not yet disposed
    launchReceiver: bool,
    appTimers: map<string, nat>,
    purgedApps: set<string>,
    distractingApps: set<string>,
    recheck: Option<Recheck>,
    effects: seq<Effect>)

  const Initial: TrackerState := TrackerState(false, true, false, false, map[], {}, {}, None, [])

  // ---------------------------------------------------------------------
  // Commands

  function StartTrackingStep(s: TrackerState, storedTimers: map<string, nat>): (t: TrackerState)
    ensures t.running && t.lockUnlockReceiver && t.launchReceiver && t.appTimers == storedTimers
    ensures t == s.(running := true, lockUnlockReceiver := true, launchReceiver := true,
                    appTimers := storedTimers, effects := s.effects + [ForegroundStarted])
  {
    s.(appTimers := storedTimers, lockUnlockReceiver := true, launchReceiver := true,
       effects := s.effects + [ForegroundStarted], running := true)
  }

  /** The idle check: with nothing to enforce the service stops itself, and marks
      the stop as one it asked for. */
  function StopIfNoUsageStep(s: TrackerState): (t: TrackerState)
    ensures (s.distractingApps == {} && s.appTimers == map[]) ==>
              t == s.(stoppedForcefully := false, effects := s.effects + [StopSelfRequested])
    ensures !(s.distractingApps == {} && s.appTimers == map[]) ==> t == s
  {
    if s.distractingApps == {} && s.appTimers == map[] then
      s.(stoppedForcefully := false, effects := s.effects + [StopSelfRequested])
    else s
  }

  /** New budgets replace the old ones wholesale and forgive every purge. */
  function UpdateTimersStep(s: TrackerState, storedTimers: map<string, nat>): (t: TrackerState)
    ensures var idle := s.distractingApps == {} && storedTimers == map[];
            t == s.(appTimers := storedTimers, purgedApps := {},
                    stoppedForcefully := if idle then false else s.stoppedForcefully,
                    effects := s.effects + (if idle then [StopSelfRequested] else []))
  {
    StopIfNoUsageStep(s.(appTimers := storedTimers, purgedApps := {}))
  }

  function BedtimeStep(s: TrackerState, shouldStart: bool, bedtimeApps: set<string>): (t: TrackerState)
    ensures shouldStart ==>
              t == s.(distractingApps := bedtimeApps, purgedApps := {},
                      effects := s.effects + (if s.lockUnlockReceiver then [LastAppBroadcast] else []))
    ensures !shouldStart ==>
              var idle := s.appTimers == map[];
              t == s.(distractingApps := {},
                      stoppedForcefully := if idle then false else s.stoppedForcefully,
                      effects := s.effects + (if idle then [StopSelfRequested] else []))
  {
    if shouldStart then
      var t := s.(distractingApps := bedtimeApps, purgedApps := {});
      if t.lockUnlockReceiver then t.(effects := t.effects + [LastAppBroadcast]) else t
    else
      StopIfNoUsageStep(s.(distractingApps := {}))
  }

  /** onStartCommand; the second component is "sticky". */
  function StartCommandStep(s: TrackerState, action: Option<Command>, storedTimers: map<string, nat>,
                            bedtimeApps: set<string>): (r: (TrackerState, bool))
    ensures r.1 <==> action == Some(StartService) || action == Some(StartBedtime)
    ensures action.None? ==> r.0 == s
    ensures action == Some(StartService) ==> r.0 == StartTrackingStep(s, storedTimers)
    ensures action == Some(StartBedtime) ==>
              r.0 == BedtimeStep(if s.running then s else StartTrackingStep(s, storedTimers), true, bedtimeApps)
    ensures action == Some(StopBedtime) ==> r.0 == BedtimeStep(s, false, bedtimeApps)
    ensures action == Some(MidnightReset) ==> r.0 == s.(purgedApps := {}, effects := s.effects + [MidnightAlert])
    ensures action == Some(OtherCommand) ==> r.0 == StopIfNoUsageStep(s)
  {
    match action
    case None => (s, false)
    case Some(StartService) => (StartTrackingStep(s, storedTimers), true)
    case Some(StartBedtime) =>
      var started := if !s.running then StartTrackingStep(s, storedTimers) else s;
      (BedtimeStep(started, true, bedtimeApps), true)
    case Some(StopBedtime) => (BedtimeStep(s, false, bedtimeApps), false)
    case Some(MidnightReset) => (s.(purgedApps := {}, effects := s.effects + [MidnightAlert]), false)
    case Some(OtherCommand) => (StopIfNoUsageStep(s), false)
  }

  function PauseResumeStep(s: TrackerState, shouldPause: bool): (t: TrackerState)
    ensures t.effects == s.effects + (if s.lockUnlockReceiver then [TrackingPauseResumed(shouldPause)] else [])
    ensures t.(effects := s.effects) == s
  {
    if s.lockUnlockReceiver then s.(effects := s.effects + [TrackingPauseResumed(shouldPause)]) else s
  }

  /** onDestroy: release both receivers (the launch receiver cancels its recheck
      first); a stop the service did not ask for restarts it unless it already runs. */
  function DestroyStep(s: TrackerState, alreadyRunning: bool): (t: TrackerState)
    ensures !t.lockUnlockReceiver && !t.launchReceiver
    ensures s.launchReceiver ==> t.recheck.None?
    ensures t == s.(lockUnlockReceiver := false, launchReceiver := false,
                    recheck := if s.launchReceiver then None else s.recheck,
                    effects := s.effects + (if s.stoppedForcefully && !alreadyRunning then [RestartRequested] else []))
  {
    var a := s.(lockUnlockReceiver := false);
    var b := if a.launchReceiver then a.(recheck := None, launchReceiver := false) else a;
    if b.stoppedForcefully && !alreadyRunning then b.(effects := b.effects + [RestartRequested]) else b
  }

  // ---------------------------------------------------------------------
  // App-launch events

  function CancelTimersStep(s: TrackerState): (t: TrackerState)
    ensures t.recheck.None? && t.(recheck := s.recheck) == s
  {
    s.(recheck := None)
  }

  /** Request the overlay unless it is already showing; the bedtime flag is
      the package's membership in the distracting set at that moment. */
  function ShowOverlayStep(s: TrackerState, pkg: string, overlayShowing: bool): (t: TrackerState)
    ensures t.(effects := s.effects) == s
    ensures t.effects == s.effects + (if overlayShowing then [] else [OverlayRequested(pkg, pkg in s.distractingApps)])
  {
    if overlayShowing then s
    else s.(effects := s.effects + [OverlayRequested(pkg, pkg in s.distractingApps)])
  }

  /** A launched app that has a timer: block it if already purged, purge and block
      it if its usage reached the budget, otherwise schedule one recheck. */
  function TimerAppLaunchedStep(s: TrackerState, pkg: string, usedSecs: nat, overlayShowing: bool): (t: TrackerState)
    requires pkg in s.appTimers
    ensures pkg !in s.purgedApps && !(usedSecs > 0 && usedSecs >= s.appTimers[pkg]) ==>
              && (s.appTimers[pkg] - usedSecs) * 1000 >= 0
              && t == s.(recheck := Some(Recheck(pkg, (s.appTimers[pkg] - usedSecs) * 1000)))
    ensures pkg in s.purgedApps || (usedSecs > 0 && usedSecs >= s.appTimers[pkg]) ==>
              && t.recheck == s.recheck
              && t.purgedApps == s.purgedApps + {pkg}
              && t.effects == s.effects + (if overlayShowing then [] else [OverlayRequested(pkg, pkg in s.distractingApps)])
  {
    if pkg in s.purgedApps then ShowOverlayStep(s, pkg, overlayShowing)
    else
      var allowed := GetOrDefault(s.appTimers, pkg, 0);
      if usedSecs > 0 && usedSecs >= allowed then
        ShowOverlayStep(s.(purgedApps := s.purgedApps + {pkg}), pkg, overlayShowing)
      else
        s.(recheck := Some(Recheck(pkg, (allowed - usedSecs) * 1000)))
  }

  predicate Accepted(pkg: Option<string>) { pkg.Some? && pkg.value != [] }

  /** onReceive for an app-launch event. `usedSecs` is what the usage query
      would answer for the package; `overlayShowing` whether the overlay
      service already runs. */
  function LaunchStep(s: TrackerState, pkg: Option<string>, usedSecs: nat, overlayShowing: bool): (t: TrackerState)
    ensures !Accepted(pkg) ==> t == s
    ensures t.appTimers == s.appTimers && t.distractingApps == s.distractingApps
    ensures t.running == s.running && t.stoppedForcefully == s.stoppedForcefully
    ensures Accepted(pkg) ==>
              var p := pkg.value;
              && (t.recheck.None? || (t.recheck.value.pkg == p && p in s.appTimers))
              && s.purgedApps <= t.purgedApps <= s.purgedApps + {p}
              && (t.effects == s.effects || t.effects == s.effects + [OverlayRequested(p, p in s.distractingApps)])
  {
    if !Accepted(pkg) then s
    else
      var p := pkg.value;
      var c := CancelTimersStep(s);
      if p in c.distractingApps then ShowOverlayStep(c, p, overlayShowing)
      else if p in c.appTimers then TimerAppLaunchedStep(c, p, usedSecs, overlayShowing)
      else c
  }

  /** The recheck's task runs: purge its package and request the overlay. */
  function RecheckFiredStep(s: TrackerState, overlayShowing: bool): (t: TrackerState)
    ensures s.recheck.None? ==> t == s
    ensures s.recheck.Some? ==>
              var p := s.recheck.value.pkg;
              t == s.(recheck := None, purgedApps := s.purgedApps + {p},
                      effects := s.effects + (if overlayShowing then [] else [OverlayRequested(p, p in s.distractingApps)]))
  {
    match s.recheck
    case None => s
    case Some(r) => ShowOverlayStep(s.(recheck := None, purgedApps := s.purgedApps + {r.pkg}), r.pkg, overlayShowing)
  }

  // ---------------------------------------------------------------------
  // Properties

  /** A package that is neither distracting nor timed only loses the pending recheck. */
  lemma LaunchUnrestricted(s: TrackerState, p: string, usedSecs: nat, overlayShowing: bool)
    requires p != [] && p !in s.distractingApps && p !in s.appTimers
    ensures LaunchStep(s, Some(p), usedSecs, overlayShowing) == s.(recheck := None)
  {
  }

  /** The distracting set wins over timers: block as bedtime, no recheck, no purge. */
  lemma LaunchDistracting(s: TrackerState, p: string, usedSecs: nat, overlayShowing: bool)
    requires p != [] && p in s.distractingApps
    ensures LaunchStep(s, Some(p), usedSecs, overlayShowing)
         == s.(recheck := None, effects := s.effects + (if overlayShowing then [] else [OverlayRequested(p, true)]))
  {
  }

  /** A timed package already purged is blocked at once, without consulting usage. */
  lemma LaunchAlreadyPurged(s: TrackerState, p: string, usedSecs: nat, otherUsage: nat, overlayShowing: bool)
    requires p != [] && p !in s.distractingApps && p in s.appTimers && p in s.purgedApps
    ensures LaunchStep(s, Some(p), usedSecs, overlayShowing) == LaunchStep(s, Some(p), otherUsage, overlayShowing)
    ensures LaunchStep(s, Some(p), usedSecs, overlayShowing)
         == s.(recheck := None, effects := s.effects + (if overlayShowing then [] else [OverlayRequested(p, false)]))
  {
  }

  /** Usage that reached the budget (and is not zero) purges and blocks at once. */
  lemma LaunchOverLimit(s: TrackerState, p: string, usedSecs: nat, overlayShowing: bool)
    requires p != [] && p !in s.distractingApps && p in s.appTimers && p !in s.purgedApps
    requires usedSecs > 0 && usedSecs >= s.appTimers[p]
    ensures LaunchStep(s, Some(p), usedSecs, overlayShowing)
         == s.(recheck := None, purgedApps := s.purgedApps + {p},
               effects := s.effects + (if overlayShowing then [] else [OverlayRequested(p, false)]))
  {
  }

  /** Otherwise exactly one recheck is pending, after the budget left, in ms;
      when it fires it purges and blocks the package. */
  lemma LaunchSchedulesRecheck(s: TrackerState, p: string, usedSecs: nat, overlayShowing: bool, laterShowing: bool)
    requires p != [] && p !in s.distractingApps && p in s.appTimers && p !in s.purgedApps
    requires !(usedSecs > 0 && usedSecs >= s.appTimers[p])
    ensures var t := LaunchStep(s, Some(p), usedSecs, overlayShowing);
            && t == s.(recheck := Some(Recheck(p, (s.appTimers[p] - usedSecs) * 1000)))
            && t.recheck.value.delayMs >= 0
            && var f := RecheckFiredStep(t, laterShowing);
               && f.purgedApps == s.purgedApps + {p}
               && f.recheck.None?
               && f.effects == s.effects + (if laterShowing then [] else [OverlayRequested(p, false)])
  {
  }

  /** A launch of another app drops a pending recheck: whatever fires afterwards
      cannot purge the earlier package. */
  lemma StaleRecheckNeverPurges(s: TrackerState, a: string, b: string, usedSecs: nat, showing: bool, laterShowing: bool)
    requires s.recheck.Some? && s.recheck.value.pkg == a && a !in s.purgedApps
    requires b != [] && b != a
    ensures a !in RecheckFiredStep(LaunchStep(s, Some(b), usedSecs, showing), laterShowing).purgedApps
  {
    var t := LaunchStep(s, Some(b), usedSecs, showing);
    assert a !in t.purgedApps;
  }

  /** A launch event without a package name changes nothing, pending recheck included. */
  lemma EmptyNameKeepsRecheck(s: TrackerState, usedSecs: nat, showing: bool)
    ensures LaunchStep(s, None, usedSecs, showing) == s
    ensures LaunchStep(s, Some([]), usedSecs, showing) == s
  {
  }

  /** The midnight reset forgives purges and touches nothing else. */
  lemma MidnightResetOnlyClearsPurged(s: TrackerState, timers: map<string, nat>, apps: set<string>)
    ensures var (t, sticky) := StartCommandStep(s, Some(MidnightReset), timers, apps);
            && !sticky
            && t == s.(purgedApps := {}, effects := s.effects + [MidnightAlert])
  {
  }

  /** Starting bedtime clears purges, blocks the bedtime apps, never runs the idle check. */
  lemma BedtimeStartNeverStops(s: TrackerState, timers: map<string, nat>, apps: set<string>)
    ensures var (t, sticky) := StartCommandStep(s, Some(StartBedtime), timers, apps);
            && sticky && t.running && t.stoppedForcefully == s.stoppedForcefully
            && t.purgedApps == {} && t.distractingApps == apps
            && StopSelfRequested !in t.effects[|s.effects|..]
  {
    var started := if !s.running then StartTrackingStep(s, timers) else s;
    var t := BedtimeStep(started, true, apps);
    assert t.effects[|s.effects|..] == started.effects[|s.effects|..] + t.effects[|started.effects|..];
  }

  /** Stopping bedtime empties the distracting set, then stops exactly when no timer is left. */
  lemma BedtimeStopRunsIdleCheck(s: TrackerState, timers: map<string, nat>, apps: set<string>)
    ensures var (t, sticky) := StartCommandStep(s, Some(StopBedtime), timers, apps);
            && !sticky && t.distractingApps == {}
            && (s.appTimers == map[] ==> !t.stoppedForcefully && t.effects == s.effects + [StopSelfRequested])
            && (s.appTimers != map[] ==> t == s.(distractingApps := {}))
  {
  }

  /** End to end: a one-minute budget with nothing used yet schedules a recheck at
      60 s and no overlay; when it fires the app is purged and blocked. */
  lemma OneMinuteBudgetScenario(s: TrackerState)
    requires s.appTimers == map["com.x" := 60] && s.purgedApps == {} && s.distractingApps == {}
    ensures var t := LaunchStep(s, Some("com.x"), 0, false);
            && t.recheck == Some(Recheck("com.x", 60000))
            && t.effects == s.effects
            && var f := RecheckFiredStep(t, false);
               && f.purgedApps == {"com.x"}
               && f.effects == s.effects + [OverlayRequested("com.x", false)]
  {
    LaunchSchedulesRecheck(s, "com.x", 0, false, false);
  }

  // ---------------------------------------------------------------------
  // The service object

  /** MindfulTrackerService together with its app-launch receiver, whose only
      state of its own, the recheck timer slot, is the field `recheck`. */
  class TrackerService {
    var running: bool
    var stoppedForcefully: bool
    var lockUnlockReceiver: bool
    var launchReceiver: bool
    var appTimers: map<string, nat>
    var purgedApps: set<string>
    var distractingApps: set<string>
    var recheck: Option<Recheck>
    var effects: seq<Effect>

    function State(): TrackerState
      reads this
    {
      TrackerState(running, stoppedForcefully, lockUnlockReceiver, launchReceiver,
                   appTimers, purgedApps, distractingApps, recheck, effects)
    }

    constructor ()
      ensures State() == Initial
    {
      running, stoppedForcefully := false, true;
      lockUnlockReceiver, launchReceiver := false, false;
      appTimers, purgedApps, distractingApps := map[], {}, {};
      recheck := None;
      effects := [];
    }

    method OnStartCommand(action: Option<Command>, storedTimers: map<string, nat>, bedtimeApps: set<string>)
      returns (sticky: bool)
      modifies this
      ensures (State(), sticky) == StartCommandStep(old(State()), action, storedTimers, bedtimeApps)
    {
      sticky := false;
      if action.None? {
        return;
      }
      match action.value
      case StartService =>
        StartTrackingService(storedTimers);
        return true;
      case StartBedtime =>
        if !running {
          StartTrackingService(storedTimers);
        }
        StartStopBedtimeRoutine(true, bedtimeApps);
        return true;
      case StopBedtime =>
        StartStopBedtimeRoutine(false, bedtimeApps);
      case MidnightReset =>
        purgedApps := {};
        effects := effects + [MidnightAlert];
      case OtherCommand =>
        StopIfNoUsage();
    }

    method StartTrackingService(storedTimers: map<string, nat>)
      modifies this
      ensures State() == StartTrackingStep(old(State()), storedTimers)
    {
      appTimers := storedTimers;
      lockUnlockReceiver := true;
      launchReceiver := true;
      effects := effects + [ForegroundStarted];
      running := true;
    }

    method UpdateAppTimers(storedTimers: map<string, nat>)
      modifies this
      ensures State() == UpdateTimersStep(old(State()), storedTimers)
    {
      appTimers := storedTimers;
      purgedApps := {};
      StopIfNoUsage();
    }

    method StopIfNoUsage()
      modifies this
      ensures State() == StopIfNoUsageStep(old(State()))
    {
      if distractingApps == {} && appTimers == map[] {
        stoppedForcefully := false;
        effects := effects + [StopSelfRequested];
      }
    }

    method StartStopBedtimeRoutine(shouldStart: bool, bedtimeApps: set<string>)
      modifies this
      ensures State() == BedtimeStep(old(State()), shouldStart, bedtimeApps)
    {
      if shouldStart {
        distractingApps := bedtimeApps;
        purgedApps := {};
        if lockUnlockReceiver {
          effects := effects + [LastAppBroadcast];
        }
      } else {
        distractingApps := {};
        StopIfNoUsage();
      }
    }

    method PauseResumeTracking(shouldPause: bool)
      modifies this
      ensures State() == PauseResumeStep(old(State()), shouldPause)
    {
      if lockUnlockReceiver {
        effects := effects + [TrackingPauseResumed(shouldPause)];
      }
    }

    method OnDestroy(alreadyRunning: bool)
      modifies this
      ensures State() == DestroyStep(old(State()), alreadyRunning)
    {
      lockUnlockReceiver := false;
      if launchReceiver {
        CancelTimers();
        launchReceiver := false;
      }
      if stoppedForcefully && !alreadyRunning {
        effects := effects + [RestartRequested];
      }
    }

    method OnReceive(pkg: Option<string>, usedSecs: nat, overlayShowing: bool)
      modifies this
      ensures State() == LaunchStep(old(State()), pkg, usedSecs, overlayShowing)
    {
      if pkg.None? || pkg.value == [] {
        return;
      }
      var p := pkg.value;
      CancelTimers();
      if p in distractingApps {
        ShowOverlayDialog(p, overlayShowing);
      } else if p in appTimers {
        OnTimerAppLaunched(p, usedSecs, overlayShowing);
      }
    }

    method OnTimerAppLaunched(p: string, usedSecs: nat, overlayShowing: bool)
      requires p in appTimers
      modifies this
      ensures State() == TimerAppLaunchedStep(old(State()), p, usedSecs, overlayShowing)
    {
      if p in purgedApps {
        ShowOverlayDialog(p, overlayShowing);
        return;
      }
      var screenTimeSec := usedSecs;
      var appTimerSec := GetOrDefault(appTimers, p, 0);
      if screenTimeSec > 0 && screenTimeSec >= appTimerSec {
        purgedApps := purgedApps + {p};
        ShowOverlayDialog(p, overlayShowing);
        return;
      }
      var delayMs := (appTimerSec - screenTimeSec) * 1000;
      recheck := Some(Recheck(p, delayMs));
    }

    /** The recheck TimerTask's run. */
    method RunRecheck(overlayShowing: bool)
      modifies this
      ensures State() == RecheckFiredStep(old(State()), overlayShowing)
    {
      if recheck.None? {
        return;
      }
      var p := recheck.value.pkg;
      recheck := None;
      purgedApps := purgedApps + {p};
      ShowOverlayDialog(p, overlayShowing);
    }

    method ShowOverlayDialog(p: string, overlayShowing: bool)
      modifies this
      ensures State() == ShowOverlayStep(old(State()), p, overlayShowing)
    {
      if !overlayShowing {
        effects := effects + [OverlayRequested(p, p in distractingApps)];
      }
    }

    method CancelTimers()
      modifies this
      ensures State() == CancelTimersStep(old(State()))
    {
      recheck := None;
    }
  }
}

=== FILE: vpn_service.dfy ===
/** The network blocking controller: the blocked-app set, a deferred restart,
    and a single worker-thread slot replaced by get-and-set with interrupt. */
module Vpn {
  import opened Wrappers

  /** Threads are numbered in creation order; a new one takes the next number. */
  type ThreadId = nat

  datatype Command = StartService | OtherCommand

  /** How a worker's setup ends. `NotPrepared` is `establish()` answering null
      (the app is not the prepared VPN app): the null is stored and the worker
      ends normally. A failure to protect the socket throws an exception that
      no handler catches, so the worker dies without cleanup. */
  datatype SetupOutcome = Established | NotPrepared | SocketFailure | IoOrArgumentFailure | ProtectRefused

  /** The established interface: the worker that built it and the apps routed into it. */
  datatype VpnInterface = VpnInterface(owner: ThreadId, allowedApps: set<string>)

  /** Whether the platform sends an app's traffic into the interface: an app on
      the allowed list, or every app when no allowed application was added. */
  predicate Routes(iface: VpnInterface, pkg: string)
  {
    iface.allowedApps == {} || pkg in iface.allowedApps
  }

  datatype Effect =
    | WorkerStarted(thread: ThreadId)
    | ForegroundStarted
    | StopSelfRequested      // stopForeground + stopSelf
    | WorkerCrashed(thread: ThreadId)
    | RestartRequested

  datatype VpnState = VpnState(
    blockedApps: set<string>,
    shouldRestart: bool,
    stoppedForcefully: bool,
    worker: Option<ThreadId>,
    nextThread: nat,
    interrupted: seq<ThreadId>,
    vpnInterface: Option<VpnInterface>,
    effects: seq<Effect>)

  const Initial: VpnState := VpnState({}, false, true, None, 0, [], None, [])

  /** The single-worker invariant: every thread ever created is either the one in
      the slot or has been interrupted, exactly once; the one in the slot has not. */
  ghost predicate Inv(s: VpnState)
  {
    && (s.worker.Some? ==> s.worker.value < s.nextThread && s.worker.value !in s.interrupted)
    && (forall i :: 0 <= i < |s.interrupted| ==> s.interrupted[i] < s.nextThread)
    && (forall i, j :: 0 <= i < j < |s.interrupted| ==> s.interrupted[i] != s.interrupted[j])
    && (forall id: nat :: id < s.nextThread ==> id in s.interrupted || s.worker == Some(id))
  }

  // ---------------------------------------------------------------------
  // Operations

  /** getAndSet, then interrupt whatever was there before. */
  function SetVpnThreadStep(s: VpnState, t: Option<ThreadId>): (r: VpnState)
    ensures r.worker == t
    ensures r.interrupted == s.interrupted + (if s.worker.Some? then [s.worker.value] else [])
    ensures r.(worker := s.worker, interrupted := s.interrupted) == s
  {
    s.(worker := t, interrupted := s.interrupted + (if s.worker.Some? then [s.worker.value] else []))
  }

  /** Close the interface, then empty the slot; a failing close skips the rest. */
  function DisconnectStep(s: VpnState, closeFails: bool): (r: VpnState)
    ensures s.vpnInterface.Some? && closeFails ==> r == s
    ensures !(s.vpnInterface.Some? && closeFails) ==> r == SetVpnThreadStep(s, None) && r.worker.None?
  {
    if s.vpnInterface.Some? && closeFails then s else SetVpnThreadStep(s, None)
  }

  function StopAndDisposeStep(s: VpnState, closeFails: bool): (r: VpnState)
    ensures !r.stoppedForcefully
    ensures r.effects == s.effects + [StopSelfRequested]
    ensures !(s.vpnInterface.Some? && closeFails) ==>
              r.worker.None? && r.interrupted == s.interrupted + (if s.worker.Some? then [s.worker.value] else [])
    ensures s.vpnInterface.Some? && closeFails ==> r.worker == s.worker && r.interrupted == s.interrupted
    ensures r.blockedApps == s.blockedApps && r.shouldRestart == s.shouldRestart
    ensures r.nextThread == s.nextThread && r.vpnInterface == s.vpnInterface
  {
    var d := DisconnectStep(s, closeFails);
    d.(stoppedForcefully := false, effects := d.effects + [StopSelfRequested])
  }

  /** With nothing blocked, stop; otherwise a new worker takes the slot and starts. */
  function ConnectStep(s: VpnState, closeFails: bool): (r: VpnState)
    ensures s.blockedApps == {} ==> r == StopAndDisposeStep(s, closeFails)
    ensures s.blockedApps != {} ==>
              r == s.(worker := Some(s.nextThread), nextThread := s.nextThread + 1,
                      interrupted := s.interrupted + (if s.worker.Some? then [s.worker.value] else []),
                      effects := s.effects + [WorkerStarted(s.nextThread), ForegroundStarted])
  {
    if s.blockedApps == {} then StopAndDisposeStep(s, closeFails)
    else
      var id := s.nextThread;
      var t := SetVpnThreadStep(s.(nextThread := id + 1), Some(id));
      t.(effects := t.effects + [WorkerStarted(id), ForegroundStarted])
  }

  /** Disconnect, then connect: with apps still blocked the old worker is
      interrupted exactly once, whether or not closing the interface throws,
      and a new one holds the slot. */
  function RestartStep(s: VpnState, closeFails: bool): (r: VpnState)
    ensures s.blockedApps != {} ==>
              r == s.(worker := Some(s.nextThread), nextThread := s.nextThread + 1,
                      interrupted := s.interrupted + (if s.worker.Some? then [s.worker.value] else []),
                      effects := s.effects + [WorkerStarted(s.nextThread), ForegroundStarted])
    ensures s.blockedApps == {} ==> !r.stoppedForcefully && r.effects == s.effects + [StopSelfRequested]
    ensures s.blockedApps == {} ==> r.nextThread == s.nextThread && (r.worker.None? || r.worker == s.worker)
    ensures r.blockedApps == s.blockedApps && r.shouldRestart == s.shouldRestart && r.vpnInterface == s.vpnInterface
  {
    ConnectStep(DisconnectStep(s, closeFails), closeFails)
  }

  /** onStartCommand; the second component is "sticky". */
  function StartCommandStep(s: VpnState, action: Option<Command>, storedBlocked: set<string>, closeFails: bool)
    : (r: (VpnState, bool))
    ensures action.None? ==> r == (s, false)
    ensures action == Some(StartService) ==> r.1 && r.0 == ConnectStep(s.(blockedApps := storedBlocked), closeFails)
    ensures action == Some(OtherCommand) ==> !r.1 && r.0 == StopAndDisposeStep(s, closeFails)
  {
    match action
    case None => (s, false)
    case Some(StartService) => (ConnectStep(s.(blockedApps := storedBlocked), closeFails), true)
    case Some(OtherCommand) => (StopAndDisposeStep(s, closeFails), false)
  }

  /** New blocked apps: stop at once if none are left, otherwise only mark a
      restart for the next safe point and leave the worker alone. */
  function UpdateBlockedAppsStep(s: VpnState, storedBlocked: set<string>, closeFails: bool): (r: VpnState)
    ensures r.blockedApps == storedBlocked
    ensures storedBlocked == {} ==> r.effects == s.effects + [StopSelfRequested] && !r.stoppedForcefully
    ensures storedBlocked == {} && !(s.vpnInterface.Some? && closeFails) ==>
              r.worker.None? && r.interrupted == s.interrupted + (if s.worker.Some? then [s.worker.value] else [])
    ensures storedBlocked == {} && s.vpnInterface.Some? && closeFails ==>
              r.worker == s.worker && r.interrupted == s.interrupted
    ensures storedBlocked == {} ==>
              && r.shouldRestart == s.shouldRestart && r.vpnInterface == s.vpnInterface
              && r.nextThread == s.nextThread
    ensures storedBlocked == {} ==> r == StopAndDisposeStep(s.(blockedApps := {}), closeFails)
    ensures storedBlocked != {} ==> r == s.(blockedApps := storedBlocked, shouldRestart := true)
  {
    var t := s.(blockedApps := storedBlocked);
    if storedBlocked == {} then StopAndDisposeStep(t, closeFails) else t.(shouldRestart := true)
  }

  /** The safe point: a pending restart is carried out and consumed. */
  function ApplicationStopStep(s: VpnState, closeFails: bool): (r: VpnState)
    ensures !s.shouldRestart ==> r == s
    ensures s.shouldRestart ==> !r.shouldRestart && r == RestartStep(s, closeFails).(shouldRestart := false)
  {
    if s.shouldRestart then RestartStep(s, closeFails).(shouldRestart := false) else s
  }

  /** The worker's run: on success the interface routes exactly the blocked apps
      the device can resolve; a socket, I/O or argument failure stops the service. */
  function WorkerRunStep(s: VpnState, t: ThreadId, outcome: SetupOutcome, installed: set<string>,
                         closeFails: bool): (r: VpnState)
    ensures outcome == Established ==> r == s.(vpnInterface := Some(VpnInterface(t, s.blockedApps * installed)))
    ensures outcome == NotPrepared ==> r == s.(vpnInterface := None)
    ensures outcome == ProtectRefused ==> r == s.(effects := s.effects + [WorkerCrashed(t)])
    ensures outcome == SocketFailure || outcome == IoOrArgumentFailure ==> r == StopAndDisposeStep(s, closeFails)
  {
    match outcome
    case Established => s.(vpnInterface := Some(VpnInterface(t, s.blockedApps * installed)))
    case NotPrepared => s.(vpnInterface := None)
    case SocketFailure => StopAndDisposeStep(s, closeFails)
    case IoOrArgumentFailure => StopAndDisposeStep(s, closeFails)
    case ProtectRefused => s.(effects := s.effects + [WorkerCrashed(t)])
  }

  /** onDestroy: disconnect; restart only a service that was not stopped on purpose. */
  function DestroyStep(s: VpnState, closeFails: bool, alreadyRunning: bool): (r: VpnState)
    ensures r.effects == s.effects + (if s.stoppedForcefully && !alreadyRunning then [RestartRequested] else [])
    ensures r.(effects := s.effects) == DisconnectStep(s, closeFails)
  {
    var d := DisconnectStep(s, closeFails);
    if d.stoppedForcefully && !alreadyRunning then d.(effects := d.effects + [RestartRequested]) else d
  }

  // ---------------------------------------------------------------------
  // The invariant over every sequence of events

  datatype Event =
    | Command(action: Option<Command>, storedBlocked: set<string>, closeFails: bool)
    | BlockedAppsUpdated(storedBlocked: set<string>, closeFails: bool)
    | ApplicationStopped(closeFails: bool)
    | WorkerRan(thread: ThreadId, outcome: SetupOutcome, installed: set<string>, closeFails: bool)
    | Destroyed(closeFails: bool, alreadyRunning: bool)

  function Apply(s: VpnState, e: Event): VpnState
  {
    match e
    case Command(a, b, c) => StartCommandStep(s, a, b, c).0
    case BlockedAppsUpdated(b, c) => UpdateBlockedAppsStep(s, b, c)
    case ApplicationStopped(c) => ApplicationStopStep(s, c)
    case WorkerRan(t, o, i, c) => WorkerRunStep(s, t, o, i, c)
    case Destroyed(c, a) => DestroyStep(s, c, a)
  }

  function Run(s: VpnState, events: seq<Event>): VpnState
    decreases |events|
  {
    if events == [] then s else Run(Apply(s, events[0]), events[1..])
  }

  /** Emptying the slot interrupts its holder and keeps the invariant. */
  lemma ClearSlotKeepsInv(s: VpnState)
    requires Inv(s)
    ensures Inv(SetVpnThreadStep(s, None))
  {
    var r := SetVpnThreadStep(s, None);
    forall id: nat | id < r.nextThread
      ensures id in r.interrupted
    {
      if id !in s.interrupted {
        assert r.interrupted[|s.interrupted|] == id;
      }
    }
  }

  /** Installing a freshly created thread interrupts exactly the previous
      holder, never the new thread, and keeps the invariant. */
  lemma InstallFreshKeepsInv(s: VpnState)
    requires Inv(s)
    ensures var r := SetVpnThreadStep(s.(nextThread := s.nextThread + 1), Some(s.nextThread));
            Inv(r) && s.nextThread !in r.interrupted
  {
    var id := s.nextThread;
    var r := SetVpnThreadStep(s.(nextThread := id + 1), Some(id));
    assert id !in s.interrupted;
    forall k: nat | k < r.nextThread
      ensures k in r.interrupted || r.worker == Some(k)
    {
      if k < id && k !in s.interrupted {
        assert r.interrupted[|s.interrupted|] == k;
      }
    }
  }

  lemma DisconnectKeepsInv(s: VpnState, closeFails: bool)
    requires Inv(s)
    ensures Inv(DisconnectStep(s, closeFails))
  {
    if !(s.vpnInterface.Some? && closeFails) {
      ClearSlotKeepsInv(s);
    }
  }

  lemma StopAndDisposeKeepsInv(s: VpnState, closeFails: bool)
    requires Inv(s)
    ensures Inv(StopAndDisposeStep(s, closeFails))
  {
    DisconnectKeepsInv(s, closeFails);
  }

  lemma ConnectKeepsInv(s: VpnState, closeFails: bool)
    requires Inv(s)
    ensures Inv(ConnectStep(s, closeFails))
  {
    if s.blockedApps == {} {
      StopAndDisposeKeepsInv(s, closeFails);
    } else {
      InstallFreshKeepsInv(s);
    }
  }

  /** The invariant reads only the slot, the thread counter and the interrupt log. */
  lemma InvOnlyReadsThreads(s: VpnState, r: VpnState)
    requires Inv(s)
    requires r.worker == s.worker && r.nextThread == s.nextThread && r.interrupted == s.interrupted
    ensures Inv(r)
  {
  }

  lemma RestartKeepsInv(s: VpnState, closeFails: bool)
    requires Inv(s)
    ensures Inv(ApplicationStopStep(s, closeFails))
  {
    if s.shouldRestart {
      DisconnectKeepsInv(s, closeFails);
      ConnectKeepsInv(DisconnectStep(s, closeFails), closeFails);
      var r := RestartStep(s, closeFails);
      InvOnlyReadsThreads(r, r.(shouldRestart := false));
    }
  }

  lemma CommandKeepsInv(s: VpnState, a: Option<Command>, b: set<string>, c: bool)
    requires Inv(s)
    ensures Inv(StartCommandStep(s, a, b, c).0)
  {
    if a == Some(StartService) {
      InvOnlyReadsThreads(s, s.(blockedApps := b));
      ConnectKeepsInv(s.(blockedApps := b), c);
    } else if a == Some(OtherCommand) {
      StopAndDisposeKeepsInv(s, c);
    }
  }

  lemma UpdateKeepsInv(s: VpnState, b: set<string>, c: bool)
    requires Inv(s)
    ensures Inv(UpdateBlockedAppsStep(s, b, c))
  {
    InvOnlyReadsThreads(s, s.(blockedApps := b));
    if b == {} {
      StopAndDisposeKeepsInv(s.(blockedApps := b), c);
    } else {
      InvOnlyReadsThreads(s, s.(blockedApps := b, shouldRestart := true));
    }
  }

  lemma WorkerRunKeepsInv(s: VpnState, t: ThreadId, o: SetupOutcome, i: set<string>, c: bool)
    requires Inv(s)
    ensures Inv(WorkerRunStep(s, t, o, i, c))
  {
    if o == SocketFailure || o == IoOrArgumentFailure {
      StopAndDisposeKeepsInv(s, c);
    } else {
      InvOnlyReadsThreads(s, WorkerRunStep(s, t, o, i, c));
    }
  }

  lemma DestroyKeepsInv(s: VpnState, c: bool, a: bool)
    requires Inv(s)
    ensures Inv(DestroyStep(s, c, a))
  {
    DisconnectKeepsInv(s, c);
    var d := DisconnectStep(s, c);
    InvOnlyReadsThreads(d, DestroyStep(s, c, a));
  }

  lemma ApplyKeepsInv(s: VpnState, e: Event)
    requires Inv(s)
    ensures Inv(Apply(s, e))
  {
    match e
    case Command(a, b, c) => CommandKeepsInv(s, a, b, c);
    case BlockedAppsUpdated(b, c) => UpdateKeepsInv(s, b, c);
    case ApplicationStopped(c) => RestartKeepsInv(s, c);
    case WorkerRan(t, o, i, c) => WorkerRunKeepsInv(s, t, o, i, c);
    case Destroyed(c, a) => DestroyKeepsInv(s, c, a);
  }

  /** From a fresh service, whatever happens, the single-worker invariant holds. */
  lemma {:induction false} RunKeepsInv(s: VpnState, events: seq<Event>)
    requires Inv(s)
    ensures Inv(Run(s, events))
    decreases |events|
  {
    if events != [] {
      ApplyKeepsInv(s, events[0]);
      RunKeepsInv(Apply(s, events[0]), events[1..]);
    }
  }

  /** Hence at most one created worker is ever left uninterrupted: the one in the slot. */
  lemma AtMostOneLiveWorker(events: seq<Event>, a: ThreadId, b: ThreadId)
    requires var s := Run(Initial, events); a < s.nextThread && b < s.nextThread
    requires var s := Run(Initial, events); a !in s.interrupted && b !in s.interrupted
    ensures a == b && Run(Initial, events).worker == Some(a)
  {
    RunKeepsInv(Initial, events);
  }

  /** Connecting with nothing blocked creates no thread and stops on purpose;
      the slot is emptied unless closing the interface throws. */
  lemma EmptyBlockedNeverConnects(s: VpnState, closeFails: bool)
    requires s.blockedApps == {}
    ensures var r := ConnectStep(s, closeFails);
            && r.nextThread == s.nextThread && !r.stoppedForcefully
            && r.effects == s.effects + [StopSelfRequested]
            && (!(s.vpnInterface.Some? && closeFails) ==> r.worker.None?)
            && (s.vpnInterface.Some? && closeFails ==> r.worker == s.worker)
  {
  }

  /** A non-empty update leaves the worker running; only the safe point rebuilds it. */
  lemma UpdateDefersRestart(s: VpnState, blocked: set<string>, closeFails: bool)
    requires blocked != {}
    ensures var u := UpdateBlockedAppsStep(s, blocked, closeFails);
            && u.worker == s.worker && u.nextThread == s.nextThread && u.shouldRestart
            && var r := ApplicationStopStep(u, closeFails);
               && !r.shouldRestart
               && r.worker == Some(s.nextThread)
               && r.interrupted == s.interrupted + (if s.worker.Some? then [s.worker.value] else [])
  {
  }

  /** An established tunnel catches exactly the blocked apps the device resolves;
      when it resolves none of them, nothing was added to the allow list and the
      platform sends every app's traffic into the tunnel. */
  lemma EstablishedRouting(s: VpnState, t: ThreadId, installed: set<string>, closeFails: bool, pkg: string)
    ensures var r := WorkerRunStep(s, t, Established, installed, closeFails);
            && r.vpnInterface.Some?
            && (Routes(r.vpnInterface.value, pkg)
                <==> (s.blockedApps * installed == {} || (pkg in s.blockedApps && pkg in installed)))
  {
  }

  /** Blocked apps that are all uninstalled cut off every app, the allowed ones included. */
  lemma NoResolvedBlockedAppRoutesEverything(s: VpnState, t: ThreadId, installed: set<string>, closeFails: bool,
                                             pkg: string)
    requires s.blockedApps != {} && s.blockedApps * installed == {}
    ensures pkg !in s.blockedApps ==> Routes(WorkerRunStep(s, t, Established, installed, closeFails).vpnInterface.value, pkg)
  {
  }

  // ---------------------------------------------------------------------
  // The service object

  /** The allowed-application loop of the worker: every blocked package the device
      resolves is added; one it cannot resolve is skipped and the loop goes on. */
  method AllowedApplications(blocked: set<string>, installed: set<string>) returns (allowed: set<string>)
    ensures allowed == blocked * installed
  {
    allowed := {};
    var rest := blocked;
    while rest != {}
      invariant rest <= blocked
      invariant allowed == (blocked - rest) * installed
      decreases rest
    {
      var p :| p in rest;
      if p in installed {
        allowed := allowed + {p};
      }
      rest := rest - {p};
    }
  }

  class MindfulVpnService {
    var blockedApps: set<string>
    var shouldRestart: bool
    var stoppedForcefully: bool
    var worker: Option<ThreadId>
    var nextThread: nat
    var interrupted: seq<ThreadId>   // every Thread.interrupt() issued, in order
    var vpnInterface: Option<VpnInterface>
    var effects: seq<Effect>

    function State(): VpnState
      reads this
    {
      VpnState(blockedApps, shouldRestart, stoppedForcefully, worker, nextThread, interrupted, vpnInterface, effects)
    }

    constructor ()
      ensures State() == Initial
    {
      blockedApps := {};
      shouldRestart := false;
      stoppedForcefully := true;
      worker := None;
      nextThread := 0;
      interrupted := [];
      vpnInterface := None;
      effects := [];
    }

    method OnStartCommand(action: Option<Command>, storedBlocked: set<string>, closeFails: bool)
      returns (sticky: bool)
      modifies this
      ensures (State(), sticky) == StartCommandStep(old(State()), action, storedBlocked, closeFails)
    {
      if action.None? {
        return false;
      }
      if action.value == StartService {
        blockedApps := storedBlocked;
        ConnectVpn(closeFails);
        return true;
      } else {
        StopAndDisposeService(closeFails);
        return false;
      }
    }

    method RestartVpnService(closeFails: bool)
      modifies this
      ensures State() == RestartStep(old(State()), closeFails)
    {
      DisconnectVpn(closeFails);
      ConnectVpn(closeFails);
    }

    method ConnectVpn(closeFails: bool)
      modifies this
      ensures State() == ConnectStep(old(State()), closeFails)
    {
      if blockedApps == {} {
        StopAndDisposeService(closeFails);
        return;
      }
      var newThread := nextThread;
      nextThread := nextThread + 1;
      SetVpnThread(Some(newThread));
      effects := effects + [WorkerStarted(newThread)];
      effects := effects + [ForegroundStarted];
    }

    method DisconnectVpn(closeFails: bool)
      modifies this
      ensures State() == DisconnectStep(old(State()), closeFails)
    {
      if vpnInterface.Some? && closeFails {
        return;  // IOException from close: logged, the slot is left as it is
      }
      SetVpnThread(None);
    }

    method StopAndDisposeService(closeFails: bool)
      modifies this
      ensures State() == StopAndDisposeStep(old(State()), closeFails)
    {
      DisconnectVpn(closeFails);
      stoppedForcefully := false;
      effects := effects + [StopSelfRequested];
    }

    method SetVpnThread(t: Option<ThreadId>)
      modifies this
      ensures State() == SetVpnThreadStep(old(State()), t)
    {
      var oldThread := worker;
      worker := t;
      if oldThread.Some? {
        interrupted := interrupted + [oldThread.value];
      }
    }

    method UpdateBlockedApps(storedBlocked: set<string>, closeFails: bool)
      modifies this
      ensures State() == UpdateBlockedAppsStep(old(State()), storedBlocked, closeFails)
    {
      blockedApps := storedBlocked;
      if blockedApps == {} {
        StopAndDisposeService(closeFails);
      } else {
        shouldRestart := true;
      }
    }

    method OnApplicationStop(closeFails: bool)
      modifies this
      ensures State() == ApplicationStopStep(old(State()), closeFails)
    {
      if shouldRestart {
        RestartVpnService(closeFails);
        shouldRestart := false;
      }
    }

    /** The worker's Runnable.run for thread `t`. */
    method RunWorker(t: ThreadId, outcome: SetupOutcome, installed: set<string>, closeFails: bool)
      modifies this
      ensures State() == WorkerRunStep(old(State()), t, outcome, installed, closeFails)
    {
      match outcome
      case Established =>
        var allowed := AllowedApplications(blockedApps, installed);
        vpnInterface := Some(VpnInterface(t, allowed));
      case NotPrepared =>
        vpnInterface := None;
      case SocketFailure =>
        StopAndDisposeService(closeFails);
      case IoOrArgumentFailure =>
        StopAndDisposeService(closeFails);
      case ProtectRefused =>
        effects := effects + [WorkerCrashed(t)];
    }

    method OnDestroy(closeFails: bool, alreadyRunning: bool)
      modifies this
      ensures State() == DestroyStep(old(State()), closeFails, alreadyRunning)
    {
      DisconnectVpn(closeFails);
      if stoppedForcefully && !alreadyRunning {
        effects := effects + [RestartRequested];
      }
    }
  }
}

=== FILE: wrappers.dfy ===
/** The optional value used wherever the Java code has a nullable reference. */
module Wrappers {
  datatype Option<+T> = None | Some(value: T)
}
